=== FILE: README.md ===
# sigpgate relay, modelled in Dafny

sigpgate waits for a signal to reach a process and then passes a signal on to
that process's descendants. The tool has three layers:

- It resolves the target pids: the given pid itself, or the processes at a chosen depth below it.
- For each target it starts a worker. The worker attaches with ptrace and waits until the target receives the *listen* signal.
- It then sends the *send* signal to every descendant of that target, depth by depth.

A driver either launches a command and uses the launched pid, or uses a pid it is given. It then runs one relay cycle, or in keep-alive mode runs cycles forever.

This project models that decision logic as pure functions over immutable data.
Every operating-system answer is an input:

- **The process tree.** Each `pgrep -P` call is replaced by a finite tree (`Process.ProcTree`). A node whose listing fails is `Unlistable` and carries the error.
- **Tracing and waiting.** The ptrace and waitpid answers are replaced by the three attach answers (`Listener.AttachTrace`) and a finite trace of loop steps (`Listener.LoopStep`).
- **Sends.** Whether each `kill` succeeds is a `delivered` oracle.
- **Retries.** The successive trees that `get_target_pids` sees while it retries are a finite sequence of snapshots.
- **Spawning.** Spawning a command is a `spawner` oracle.

Blocking calls are observed on these finite traces. A computation that would still be waiting when its trace runs out reports `Blocked` (`Types.Run`).

Files, one module each:

- `types.dfy` (`Types`): pids, signals, the error type, and the `Option`, `Result` and `Run` shapes.
- `process.dfy` (`Process`): the depth map of src/process.rs. It has a pure definition (`Levels`, `ResolveTree`) and a transliteration of the mutable-accumulator walk (`FullTree`, `VisitChildren`), and proves the two equal.
- `listener.dfy` (`Listener`): `parse_status`, `attach_to_process` and the listen loop of src/listener.rs.
- `propagate.dfy` (`Propagate`): target selection, the worker's relay and the join of src/propagate.rs. Threads become a fold over the workers' results in target order.
- `driver.dfy` (`Driver`): command splitting, `spawn_child` and `main` of src/main.rs.

## Model

| member | source | states |
|---|---|---|
| Process.ResolveTree | src/process.rs:24-53 | Fails exactly when some listing in the tree fails, and then reports the first such error in walk order; no partial map is returned. On success the keys are exactly 1..height and depth 0 is never a key. Each entry lists the pids at that distance in preorder and is never empty. A root without children gives the empty map. The depth-1 entry is the root's children in listing order. |
| Process.ChildPidsAtDepth | src/process.rs:55-61 | Fails exactly when the tree walk fails. Otherwise it gives the entry at `depth` exactly when 1 <= depth <= height, so depth 0 never yields an entry. The entry is the pids at that distance and is non-empty. |
| Process.FullTree | src/process.rs:24-53 | The recursive walk as written, threading the map through the recursion. Its contract is `Process.FullTreeIsResolve`: started with no map at depth 1, it computes the pure depth map. |
| Process.VisitChildren | src/process.rs:48-51 | The loop over the children, as written. Its contract is `Process.VisitChildrenAbsorbs`: each child is pushed at the current depth, then its subtree is merged one depth further down. |
| Process.FullTreeIsResolve | src/process.rs:29-52 | The accumulator-passing walk started with no map at depth 1 computes exactly the pure depth map, including the error case. |
| Process.FullTreeAbsorbs | src/process.rs:40-52 | Walking a subtree at a given depth merges that subtree's levels into the accumulator from that depth on, or fails with the subtree's first listing error. |
| Process.VisitChildrenAbsorbs | src/process.rs:46-51 | The loop over the children pushes each child's pid onto the current depth's entry, then merges the child's levels one depth further down. |
| Process.LevelsSpec | src/process.rs:40-51 | The level list fails iff some listing fails, with the first error. Otherwise it has one non-empty level per unit of height, and level i holds the pids at depth i+1. |
| Process.DepthOneIsChildren | src/process.rs:46-49 | The pids at distance 1 are the direct children in listing order. |
| Process.AtDepthBeyond | src/process.rs:42-44 | Below the height of the tree nothing is found, so no deeper entry is created. |
| Process.DepthMapCoversDescendants | src/process.rs:48-50 | The map has one key per level. Its entries, read in ascending depth, contain every descendant as often as the tree does (a multiset equality, no deduplication), so the entry lengths sum to the number of descendants. |
| Listener.ParseStatus | src/listener.rs:58-65 | Returns a signal iff the status is Signaled, Stopped or PtraceEvent, and then returns the signal that status carries. Every other status gives none. |
| Listener.ParseStatusCases | src/listener.rs:73-95 | The unit-test cases: SIGTERM from each of the three signal-carrying statuses, and none from StillAlive. |
| Listener.AttachToProcess | src/listener.rs:24-33 | Succeeds iff all three calls succeed. The first failing call's error is reported and later calls are not consulted. |
| Listener.Listen | src/listener.rs:37-54 | An attach failure is returned before any step is looked at. NotFound is never returned. Found iff some step reports the listened signal and every earlier step neither failed nor reported it. An error e iff attach failed with e, or the first decisive step's resume or wait failed with e. Still waiting iff no step is decisive. |
| Listener.Observe | src/listener.rs:41-53 | The wait loop after attaching. Its contract is `Listener.ObserveFirstDecisive`: the loop ends at the first step that reports the signal or fails. |
| Listener.ObserveFirstDecisive | src/listener.rs:41-51 | The loop's outcome, in both directions, is the first step that matches or fails. Steps with another signal, or with none, never end the loop. |
| Listener.ObserveIsFirstDecisive | src/listener.rs:41-51 | The loop result is determined by the first decisive step alone. |
| Listener.ObserveIgnoresLaterSteps | src/listener.rs:41-53 | Once the loop has returned, answers appended after the trace do not change its result. |
| Propagate.PropagateSignal | src/propagate.rs:29-47 | No send happens unless listening found the signal. A listen error is returned with no sends. The worker resolves the tree of its own `pid`. It succeeds iff the signal is found and that tree resolves, and otherwise returns the first listing error. On success the sends go to every descendant of `pid` in ascending depth, and within a depth in map order. Each descendant occurrence gets one send of the send signal. Every send's outcome is the `kill` oracle's. The relay reads every depth, the bound as intended (see Findings). |
| Propagate.PropagateSignalAsWritten | src/propagate.rs:29-47 | The worker with the loop bound `len() as u8` as written. Whatever the depth of the tree, no send happens unless listening found the signal, and every send uses the send signal with the `kill` oracle's answer. On success it has sent to exactly the first height-mod-256 levels of the tree of `pid`, in order. |
| Propagate.AsWrittenWorkerAgrees | src/propagate.rs:33-34 | The as-written worker succeeds or fails exactly as the intended one does. It is identical to the intended one whenever the tree is less than 256 levels deep. |
| Propagate.AsWrittenSendsArePrefix | src/propagate.rs:33-45 | At any depth of tree, the as-written worker's sends are a prefix of the intended worker's. It stops early and never sends anything else. |
| Propagate.SendsUpToPrefix | src/propagate.rs:34-35 | Looping over fewer depths sends a prefix of what looping over more depths sends. |
| Propagate.RelayCoversTree | src/propagate.rs:33-45 | For a resolvable tree every depth 1..=len is a key, so the `unwrap` cannot fail. The relay sends to the pids depth by depth, and its multiset of targets is exactly the descendants. |
| Propagate.SendAll | src/propagate.rs:35-44 | One send per pid of an entry, in entry order. Each send uses the given signal, and its success is the `kill` oracle's answer for that pid. |
| Propagate.SendsUpTo | src/propagate.rs:34-45 | The outer loop over depths 1..=n. It needs every such depth to be a key, because each entry is `unwrap`ped. Every send uses the signal and the oracle's answer. Its content is stated by `Propagate.SendsUpToLevels`. |
| Propagate.SendsUpToLevels | src/propagate.rs:34-45 | Over a map built from levels, reading depths 1..=n sends to the pids of the first n levels, level by level in order. |
| Propagate.Relay | src/propagate.rs:34-45 | The relay loop with the bound as intended, every depth. Its contract is `Propagate.RelayCoversTree`. |
| Propagate.RelayAsWritten | src/propagate.rs:34-45 | The relay loop with the bound `len() as u8` as written. Its contract is `Propagate.RelayAsWrittenIsTruncated`. |
| Propagate.RelayIsBestEffort | src/propagate.rs:36-43 | Which `kill` calls succeed changes neither the worker's result nor the pids it sends to. |
| Propagate.RelayAsWrittenIsTruncated | src/propagate.rs:34 | With the loop bound `len() as u8`, only the first height-mod-256 depths are sent to. The relay matches the intended one when the height is below 256. |
| Propagate.TruncatedRelayOfLevels | src/propagate.rs:34-35 | Over a map built from levels, every depth 1..=len is a key. The as-written loop reads the first len-mod-256 levels, in order, and is the intended loop when len < 256. |
| Propagate.RelayAsWrittenMissesDeepChain | src/propagate.rs:34 | For a chain 256 processes deep, the as-written relay sends nothing, while the intended relay sends to all 256 descendants. |
| Propagate.AttemptSucceeds | src/propagate.rs:55-57 | A resolution attempt yields an entry iff the snapshot resolves and reaches the depth. An empty entry is never yielded. |
| Propagate.RetryTargets | src/propagate.rs:54-59 | Never returns an error. Returns iff some snapshot reaches the depth, and then returns the non-empty entry of the first such snapshot. Missing, empty and failed attempts are retried. |
| Propagate.GetTargetPids | src/propagate.rs:49-60 | Depth 0 gives exactly the pid itself, without resolving anything. Otherwise every snapshot is read as the tree of `pid`. The result is returned iff some snapshot reaches the depth, and is then the non-empty entry of the first such snapshot. No error is ever returned. |
| Propagate.JoinAll | src/propagate.rs:23-26 | The joined result is the result of the first worker that did not succeed, blocked or failed, in target order. It is Ok when every worker succeeded. |
| Propagate.JoinAllFirstFailure | src/propagate.rs:23-26 | Ok iff every worker returned Ok. Error e iff the first worker that does not return Ok fails with e. Blocked iff that first worker never finishes. |
| Propagate.Workers | src/propagate.rs:17-22 | One worker per target, in target order. The `i`-th worker runs `propagate_signal` on the `i`-th target pid. |
| Propagate.PropagateToAll | src/propagate.rs:12-27 | With no targets yet, the cycle is blocked and nothing is sent. Once targets are chosen, relay `i` is exactly what the worker on the `i`-th target sent, whether the cycle succeeds, fails or is still waiting on another worker. So no relay sends unless its own listen found the signal. Depth 0 runs a single worker on the pid itself. A successful cycle means every worker found the signal, and relay `i` then covers exactly the descendants of the `i`-th target. |
| Propagate.CycleResultIsJoin | src/propagate.rs:17-26 | Once targets are chosen, the cycle result is Ok iff every worker, one per target in target order, succeeded. Otherwise it is the error of the first worker that failed. |
| Propagate.CycleSendsOnlyAfterFound | src/propagate.rs:17-31 | In any cycle, finished or not, a relay that sent anything belongs to a worker whose listen found the signal. |
| Driver.SplitWhitespace | src/main.rs:53 | Every token is non-empty and contains no whitespace. Maximality, that tokens are neither cut nor merged, is stated by `Driver.SplitSpaced` and `Driver.GapsLayout`. |
| Driver.SplitKeepsContent | src/main.rs:53 | Concatenating the tokens gives the command with its whitespace removed, so no character is lost or reordered. |
| Driver.SplitJoinWords | src/main.rs:53 | Joining non-empty, whitespace-free tokens with spaces and splitting again returns the same tokens. |
| Driver.SplitSpaced | src/main.rs:53 | Lay out any non-empty, whitespace-free tokens with any whitespace before, after and between them (between tokens at least one character). Splitting the result returns exactly those tokens. |
| Driver.GapsLayout | src/main.rs:53 | Every command is such a layout of its own tokens, with the gaps `Driver.Gaps` finds. So `Driver.SplitSpaced` fixes the split of every input. |
| Driver.Gaps | src/main.rs:53 | The gaps around and between a command's tokens are all whitespace, one more than there are tokens, non-empty between two tokens, and non-empty first when the command starts with whitespace. |
| Driver.NoTokensIffBlank | src/main.rs:50-54 | A command has no tokens iff it is empty or all whitespace. |
| Driver.SpawnChild | src/main.rs:49-58 | The empty command is refused with EmptyCommand and nothing is launched. Otherwise the first token is the program and the remaining tokens are its arguments, in order. The result is the spawner's answer for that launch. The precondition is where the source indexes a token that may not exist. |
| Driver.SpawnTestCases | src/main.rs:65-81 | The unit-test cases: the empty command yields EmptyCommand without launching, and "true" launches `true` with no arguments. |
| Driver.BlankCommandBreaksSpawnChild | src/main.rs:50-54 | The command " " passes the length check but has no token, so the as-written `spawn_child` is outside its precondition there. |
| Driver.SpawnCommand | src/main.rs:49-58 | The corrected spawn: it refuses exactly the blank commands. It splits a command into a program and arguments, none of which contains whitespace. It is the as-written `Driver.SpawnChild` wherever that one applies, the empty command included. |
| Driver.KeepAlive | src/main.rs:29-43 | Counts completed cycles up to the horizon. Every cycle before the count returned, whether Ok or error, and the cycle at the count, if before the horizon, never finished. |
| Driver.KeepAliveSwallowsErrors | src/main.rs:31-41 | The keep-alive loop reaches the horizon iff every cycle returned. Errors do not stop it. |
| Driver.Watched | src/main.rs:19-25 | The pid the driver watches: a given pid takes precedence, otherwise the command is spawned. It uses the corrected `Driver.SpawnCommand`, as the `Driver.Main:` line under Left out admits. Its contract is carried by `Driver.Main`: with a pid given, the watched pid is that pid; otherwise it is the outcome of `Driver.SpawnCommand`. |
| Driver.Main | src/main.rs:17-47 | A given pid takes precedence: it is the watched pid and nothing is launched. Otherwise the watched pid comes from spawning the command. Wherever the as-written `Driver.SpawnChild` applies, the launch and any spawn error are its own. A spawn failure is the exit result. In keep-alive mode the driver exits only on a spawn failure. Otherwise it keeps running on the watched pid, and the count of completed cycles is exactly the first cycle that never finishes, or the horizon: every earlier cycle returned, Ok or error. Without keep-alive, the single cycle on the watched pid has its result returned unchanged. |

## Left out

- Listing children with `pgrep -P` and parsing its output (src/process.rs:9-22), including the UTF-8 and number-parsing failures. The child relation is the finite `ProcTree`, and a failing listing is an `Unlistable` node carrying an error.
- Tracing: `ptrace::attach`, `waitpid`, `ptrace::setoptions` and `ptrace::syscall`. Each becomes an answer in `AttachTrace` or `LoopStep`. The pid carried by a wait status is not compared with the traced pid, just as in the source.
- Threads. Spawning and joining workers is a fold over the workers' results in target order. No interleaving is modelled, and each worker sees its own environment.
- `kill`: each send is recorded with a success flag taken from the `delivered` oracle.
- `sleep`, the `println!` logging and the verbose flag, which only affect output and timing.
- Command-line parsing. src/cli.rs declares `pid: u32` and no `cmd`, but src/main.rs matches an optional pid and an optional command. The model follows src/main.rs (`Driver.Opts`), and the two files are not reconciled.
- `SignalMap::new` and `send_signal()` are not part of this model: the signal a worker sends is an input (`SignalMap.sendSignal`).
- Driver.Main: the panic when neither a pid nor a command is given is a precondition.
- Driver.Main: a command is launched with the corrected `Driver.SpawnCommand` (see Findings). For a whitespace-only command the driver exits with `EmptyCommand`, where the source would panic; on every other command it is the as-written `spawn_child`.
- Propagate.PropagateSignal: relays every depth, the bound as intended (see Findings). The loop bound as written is `Propagate.PropagateSignalAsWritten`, which differs only on trees at least 256 levels deep.
- Propagate.PropagateToAll: runs the intended worker `Propagate.PropagateSignal`, and so relays to every depth. With the as-written worker, a cycle differs only for targets whose trees are at least 256 levels deep.
- The process tree a worker or a retry sees is read as the tree of the pid the source passes (`Process.Rooted`): below the root it is an input, and the root is that pid. Re-rooting changes neither the descendants, the listing failures, the height nor any level below the root (`Process.RootedKeepsBelow`).
- Driver.Main: keep-alive mode never returns. The model observes it for `horizon` cycles and reports the count of completed cycles.
- Pid width: src/types.rs uses `i32` pids while the listing yields `u32`. Both are `nat` here, so the sign conversions are not modelled.
- A retry loop that never succeeds, and a listen that never sees its signal, are not modelled as divergence. Both are observed as `Blocked` once the finite trace ends.

## Findings

| source | as written | input that shows it | evidently intended | confidence | as-written member | corrected member |
|---|---|---|---|---|---|---|
| src/propagate.rs:34 | The relay loop runs `1..=child_pids.len() as u8`. The cast keeps the number of depths modulo 256. | A chain of 256 processes below the target: the map has 256 keys, the bound becomes 0, and no descendant is signalled. | Every depth 1..=len is relayed. | not executed | Propagate.RelayAsWrittenMissesDeepChain | Propagate.PropagateSignal |
| src/main.rs:50-54 | Only a zero-length command is refused. The first token is then indexed with `command[0]`. | The command " " passes the check and splits into no tokens, so the index panics. | A command with no tokens is refused as `EmptyCommand`. | not executed | Driver.BlankCommandBreaksSpawnChild | Driver.SpawnCommand |

=== FILE: driver.dfy ===
/** The driver of src/main.rs: find the pid to watch (the given one, or the
    pid of a command it spawns), then run one relay cycle, or run cycles
    forever in keep-alive mode. */
module Driver {
  import opened Types
  import opened Propagate

  // ---------------------------------------------------------------------
  // Splitting a command line.
  // ---------------------------------------------------------------------

  /** Unicode White_Space, the set `split_whitespace` splits on. */
  predicate IsWhitespace(c: char) {
    var n := c as int;
    (0x09 <= n <= 0x0D) || n == 0x20 || n == 0x85 || n == 0xA0 || n == 0x1680 ||
    (0x2000 <= n <= 0x200A) || n == 0x2028 || n == 0x2029 || n == 0x202F ||
    n == 0x205F || n == 0x3000
  }

  predicate NoWhitespace(s: string) {
    forall i :: 0 <= i < |s| ==> !IsWhitespace(s[i])
  }

  /** Length of the leading run of non-whitespace characters. */
  function TokenLength(s: string): (n: nat)
    ensures n <= |s|
    ensures NoWhitespace(s[..n])
    ensures n < |s| ==> IsWhitespace(s[n])
  {
    if |s| == 0 || IsWhitespace(s[0]) then 0
    else
      var n := 1 + TokenLength(s[1..]);
      assert s[..n] == [s[0]] + s[1..][..n - 1];
      n
  }

  /** `split_whitespace`: the maximal runs of non-whitespace, in order. */
  function SplitWhitespace(s: string): (r: seq<string>)
    ensures forall i :: 0 <= i < |r| ==> r[i] != [] && NoWhitespace(r[i])
    decreases |s|
  {
    if |s| == 0 then []
    else if IsWhitespace(s[0]) then SplitWhitespace(s[1..])
    else
      var n := TokenLength(s);
      [s[..n]] + SplitWhitespace(s[n..])
  }

  /** The characters of `s` that are not whitespace. */
  function Strip(s: string): string {
    if |s| == 0 then [] else (if IsWhitespace(s[0]) then [] else [s[0]]) + Strip(s[1..])
  }

  function Concat(ts: seq<string>): string {
    if |ts| == 0 then [] else ts[0] + Concat(ts[1..])
  }

  /** The tokens separated by single spaces. */
  function JoinWords(ts: seq<string>): string {
    if |ts| == 0 then []
    else if |ts| == 1 then ts[0]
    else ts[0] + " " + JoinWords(ts[1..])
  }

  lemma {:induction false} StripAppend(a: string, b: string)
    ensures Strip(a + b) == Strip(a) + Strip(b)
  {
    if |a| == 0 {
      assert a + b == b;
    } else {
      assert (a + b)[1..] == a[1..] + b;
      StripAppend(a[1..], b);
    }
  }

  lemma {:induction false} StripWord(a: string)
    requires NoWhitespace(a)
    ensures Strip(a) == a
  {
    if |a| > 0 {
      StripWord(a[1..]);
    }
  }

  /** Splitting keeps every non-whitespace character, in order, and drops
      every whitespace character. */
  lemma {:induction false} SplitKeepsContent(s: string)
    ensures Concat(SplitWhitespace(s)) == Strip(s)
    decreases |s|
  {
    if |s| > 0 {
      if IsWhitespace(s[0]) {
        SplitKeepsContent(s[1..]);
      } else {
        var n := TokenLength(s);
        SplitKeepsContent(s[n..]);
        assert s == s[..n] + s[n..];
        StripAppend(s[..n], s[n..]);
        StripWord(s[..n]);
        var r := SplitWhitespace(s);
        assert r[1..] == SplitWhitespace(s[n..]);
      }
    }
  }

  lemma {:induction false} ConcatEmpty(ts: seq<string>)
    requires forall i :: 0 <= i < |ts| ==> ts[i] != []
    ensures Concat(ts) == [] <==> ts == []
  {
  }

  lemma {:induction false} StripEmpty(s: string)
    ensures Strip(s) == [] <==> Blank(s)
  {
    if |s| > 0 {
      StripEmpty(s[1..]);
      assert forall i :: 1 <= i < |s| ==> s[i] == s[1..][i - 1];
    }
  }

  /** A command has no token exactly when it is empty or all whitespace. */
  lemma NoTokensIffBlank(s: string)
    ensures SplitWhitespace(s) == [] <==> Blank(s)
  {
    SplitKeepsContent(s);
    ConcatEmpty(SplitWhitespace(s));
    StripEmpty(s);
  }

  lemma {:induction false} TokenLengthOfWord(w: string, rest: string)
    requires NoWhitespace(w)
    requires rest == [] || IsWhitespace(rest[0])
    ensures TokenLength(w + rest) == |w|
  {
    if |w| > 0 {
      assert (w + rest)[1..] == w[1..] + rest;
      TokenLengthOfWord(w[1..], rest);
    } else {
      assert w + rest == rest;
    }
  }

  lemma SplitWord(w: string, rest: string)
    requires w != [] && NoWhitespace(w)
    requires rest == [] || IsWhitespace(rest[0])
    ensures SplitWhitespace(w + rest) == [w] + SplitWhitespace(rest)
  {
    TokenLengthOfWord(w, rest);
    assert (w + rest)[..|w|] == w;
    assert (w + rest)[|w|..] == rest;
  }

  /** Joining non-empty, whitespace-free tokens with spaces and splitting the
      result gives the tokens back. */
  lemma {:induction false} SplitJoinWords(ts: seq<string>)
    requires forall i :: 0 <= i < |ts| ==> ts[i] != [] && NoWhitespace(ts[i])
    ensures SplitWhitespace(JoinWords(ts)) == ts
  {
    if |ts| == 1 {
      SplitWord(ts[0], []);
      assert ts[0] + [] == ts[0];
    } else if |ts| > 1 {
      var rest := JoinWords(ts[1..]);
      SplitJoinWords(ts[1..]);
      var tail := " " + rest;
      assert JoinWords(ts) == ts[0] + tail;
      SplitWord(ts[0], tail);
      assert IsWhitespace(tail[0]) && tail[1..] == rest;
      assert SplitWhitespace(tail) == ts[1..];
      assert ts == [ts[0]] + ts[1..];
    }
  }

  /** Every character is whitespace. */
  predicate Blank(s: string) {
    forall i :: 0 <= i < |s| ==> IsWhitespace(s[i])
  }

  /** The tokens `ts` laid out with whitespace: `gaps[0]` before the first
      token, `gaps[i]` between tokens `i - 1` and `i`, the last gap after the
      last token. */
  function Spaced(ts: seq<string>, gaps: seq<string>): string
    requires |gaps| == |ts| + 1
    decreases |ts|
  {
    if |ts| == 0 then gaps[0] else gaps[0] + ts[0] + Spaced(ts[1..], gaps[1..])
  }

  /** A layout's gaps: all whitespace, and the ones between two tokens not
      empty. */
  predicate Separates(ts: seq<string>, gaps: seq<string>) {
    |gaps| == |ts| + 1 &&
    (forall i :: 0 <= i < |gaps| ==> Blank(gaps[i])) &&
    (forall i :: 0 < i < |ts| ==> gaps[i] != [])
  }

  lemma {:induction false} SplitBlank(w: string, rest: string)
    requires Blank(w)
    ensures SplitWhitespace(w + rest) == SplitWhitespace(rest)
    decreases |w|
  {
    if w == [] {
      assert w + rest == rest;
    } else {
      assert (w + rest)[0] == w[0];
      assert (w + rest)[1..] == w[1..] + rest;
      SplitBlank(w[1..], rest);
    }
  }

  /** Splitting any layout of non-empty, whitespace-free tokens, with any
      leading, trailing and separating whitespace, gives the tokens back: a
      token is never cut inside or merged with its neighbour. */
  lemma {:induction false} SplitSpaced(ts: seq<string>, gaps: seq<string>)
    requires forall i :: 0 <= i < |ts| ==> ts[i] != [] && NoWhitespace(ts[i])
    requires Separates(ts, gaps)
    ensures SplitWhitespace(Spaced(ts, gaps)) == ts
    decreases |ts|
  {
    if |ts| == 0 {
      SplitBlank(gaps[0], []);
      assert gaps[0] + [] == gaps[0];
    } else {
      var rest := Spaced(ts[1..], gaps[1..]);
      assert Spaced(ts, gaps) == gaps[0] + (ts[0] + rest);
      SplitBlank(gaps[0], ts[0] + rest);
      SpacedAfterToken(ts, gaps);
      SplitWord(ts[0], rest);
      SplitSpaced(ts[1..], gaps[1..]);
      assert ts == [ts[0]] + ts[1..];
    }
  }

  /** What follows a token of a layout is empty or starts with whitespace. */
  lemma SpacedAfterToken(ts: seq<string>, gaps: seq<string>)
    requires |ts| > 0 && Separates(ts, gaps)
    ensures var rest := Spaced(ts[1..], gaps[1..]); rest == [] || IsWhitespace(rest[0])
  {
    var rest := Spaced(ts[1..], gaps[1..]);
    if gaps[1] != [] {
      if |ts| == 1 {
        assert rest == gaps[1];
      } else {
        assert rest == gaps[1] + (ts[1] + Spaced(ts[2..], gaps[2..]));
      }
      assert rest[0] == gaps[1][0];
    }
  }

  /** The whitespace around and between the tokens of `s`. */
  function Gaps(s: string): (g: seq<string>)
    ensures Separates(SplitWhitespace(s), g)
    ensures |s| > 0 && IsWhitespace(s[0]) ==> g[0] != []
    decreases |s|
  {
    if |s| == 0 then [[]]
    else if IsWhitespace(s[0]) then
      var g := Gaps(s[1..]);
      [[s[0]] + g[0]] + g[1..]
    else
      var n := TokenLength(s);
      [[]] + Gaps(s[n..])
  }

  lemma SpacedPrefix(ts: seq<string>, g: seq<string>, c: char)
    requires |g| == |ts| + 1
    ensures Spaced(ts, [[c] + g[0]] + g[1..]) == [c] + Spaced(ts, g)
  {
    var h := [[c] + g[0]] + g[1..];
    if |ts| > 0 {
      assert h[1..] == g[1..];
    }
  }

  /** A string that starts with whitespace is that character followed by the
      layout of the remainder. */
  lemma GapsOfBlank(s: string)
    requires |s| > 0 && IsWhitespace(s[0])
    ensures Spaced(SplitWhitespace(s), Gaps(s)) == [s[0]] + Spaced(SplitWhitespace(s[1..]), Gaps(s[1..]))
  {
    var g' := Gaps(s[1..]);
    assert SplitWhitespace(s) == SplitWhitespace(s[1..]);
    assert Gaps(s) == [[s[0]] + g'[0]] + g'[1..];
    SpacedPrefix(SplitWhitespace(s[1..]), g', s[0]);
  }

  /** The whitespace step of `GapsLayout`, from the layout of the rest. */
  lemma LayoutAfterBlank(s: string)
    requires |s| > 0 && IsWhitespace(s[0])
    requires Spaced(SplitWhitespace(s[1..]), Gaps(s[1..])) == s[1..]
    ensures Spaced(SplitWhitespace(s), Gaps(s)) == s
  {
    GapsOfBlank(s);
    assert s == [s[0]] + s[1..];
  }

  /** The token step of `GapsLayout`, from the layout of the rest. */
  lemma LayoutAfterToken(s: string, n: nat)
    requires |s| > 0 && !IsWhitespace(s[0]) && n == TokenLength(s)
    requires Spaced(SplitWhitespace(s[n..]), Gaps(s[n..])) == s[n..]
    ensures Spaced(SplitWhitespace(s), Gaps(s)) == s
  {
    GapsOfToken(s, n);
    SplitAt(s, n);
  }

  lemma SplitAt(s: string, n: nat)
    requires n <= |s|
    ensures s[..n] + s[n..] == s
  {
  }

  /** A string that starts with a token is that token followed by the layout
      of the remainder. */
  lemma GapsOfToken(s: string, n: nat)
    requires |s| > 0 && !IsWhitespace(s[0]) && n == TokenLength(s)
    ensures Spaced(SplitWhitespace(s), Gaps(s)) == s[..n] + Spaced(SplitWhitespace(s[n..]), Gaps(s[n..]))
  {
    var ts, g := SplitWhitespace(s), Gaps(s);
    var ts', g' := SplitWhitespace(s[n..]), Gaps(s[n..]);
    assert ts == [s[..n]] + ts';
    assert g == [[]] + g';
    assert ts[0] == s[..n] && ts[1..] == ts';
    assert g[0] == [] && g[1..] == g';
    assert Spaced(ts, g) == g[0] + ts[0] + Spaced(ts[1..], g[1..]);
    assert g[0] + ts[0] == s[..n];
  }

  /** Every string is a layout of its own tokens, so `SplitSpaced` says what
      `split_whitespace` yields on every input. */
  lemma {:induction false} GapsLayout(s: string)
    ensures Spaced(SplitWhitespace(s), Gaps(s)) == s
    decreases |s|
  {
    if |s| == 0 {
    } else if IsWhitespace(s[0]) {
      GapsLayout(s[1..]);
      LayoutAfterBlank(s);
    } else {
      var n := TokenLength(s);
      GapsLayout(s[n..]);
      LayoutAfterToken(s, n);
    }
  }

  // ---------------------------------------------------------------------
  // Spawning the command.
  // ---------------------------------------------------------------------

  /** A program and its arguments, as handed to `Command::new(..).args(..)`. */
  datatype Launch = Launch(program: string, args: seq<string>)

  /** What spawning produced: the launch request, if one was made, and the
      pid of the child or the error. */
  datatype SpawnOutcome = SpawnOutcome(launched: Option<Launch>, result: Result<Pid>)

  /** `spawn_child` as written: an empty command is refused; otherwise the
      first token is the program and the rest its arguments. Indexing the
      first token fails for a command of whitespace only, hence the
      precondition. `spawner` answers for `cmd.spawn()` and `child.id()`. */
  function SpawnChild(command: string, spawner: Launch -> Result<Pid>): (r: SpawnOutcome)
    requires |command| == 0 || SplitWhitespace(command) != []
    ensures |command| == 0 <==> r == SpawnOutcome(None, Err(EmptyCommand))
    ensures r.launched.Some? <==> |command| > 0
    ensures r.launched.Some? ==>
              [r.launched.value.program] + r.launched.value.args == SplitWhitespace(command) &&
              r.result == spawner(r.launched.value)
  {
    if |command| == 0 then SpawnOutcome(None, Err(EmptyCommand))
    else
      var tokens := SplitWhitespace(command);
      var launch := Launch(tokens[0], tokens[1..]);
      SpawnOutcome(Some(launch), spawner(launch))
  }

  /** A command of one space passes the length check but has no token, so
      `spawn_child` as written cannot be applied to it. */
  lemma BlankCommandBreaksSpawnChild()
    ensures |" "| > 0 && SplitWhitespace(" ") == []
    ensures !(|" "| == 0 || SplitWhitespace(" ") != [])
  {
    assert IsWhitespace(' ');
    assert " "[1..] == [];
  }

  /** `spawn_child` with the evident intent: a command without any token,
      empty or all whitespace, is refused as empty. */
  function SpawnCommand(command: string, spawner: Launch -> Result<Pid>): (r: SpawnOutcome)
    ensures r == SpawnOutcome(None, Err(EmptyCommand)) <==>
              Blank(command)
    ensures r.launched.Some? ==>
              [r.launched.value.program] + r.launched.value.args == SplitWhitespace(command) &&
              r.result == spawner(r.launched.value)
    ensures r.launched.Some? ==>
              NoWhitespace(r.launched.value.program) &&
              forall i :: 0 <= i < |r.launched.value.args| ==> NoWhitespace(r.launched.value.args[i])
    ensures |command| == 0 || SplitWhitespace(command) != [] ==> r == SpawnChild(command, spawner)
  {
    NoTokensIffBlank(command);
    var tokens := SplitWhitespace(command);
    if |tokens| == 0 then SpawnOutcome(None, Err(EmptyCommand))
    else
      var launch := Launch(tokens[0], tokens[1..]);
      assert [launch.program] + launch.args == tokens;
      SpawnOutcome(Some(launch), spawner(launch))
  }

  /** The cases of the driver's unit tests: the empty command is refused
      before anything is spawned, a one-word command has no arguments. */
  lemma SpawnTestCases(spawner: Launch -> Result<Pid>)
    ensures SpawnChild("", spawner) == SpawnOutcome(None, Err(EmptyCommand))
    ensures SpawnChild("true", spawner).launched == Some(Launch("true", []))
  {
    var s := "true";
    assert !IsWhitespace(s[0]) && !IsWhitespace(s[1]) && !IsWhitespace(s[2]) && !IsWhitespace(s[3]);
    assert s == s + [];
    SplitWord(s, []);
  }

  // ---------------------------------------------------------------------
  // The driver.
  // ---------------------------------------------------------------------

  /** The options `main` reads (the verbose flag only affects logging). */
  datatype Opts = Opts(pid: Option<Pid>, cmd: Option<string>, listenSignal: Signal, depth: uint8, keepAlive: bool)

  datatype Status = Exited(result: Result<()>) | Running(completedCycles: nat)

  /** What the driver did: the command it launched, if any, and whether it
      returned, or how many cycles completed while it kept running. */
  datatype MainRun = MainRun(launched: Option<Launch>, status: Status)

  /** The keep-alive loop from cycle `i` on, observed up to cycle `horizon`,
      where `outcomes(j)` is how cycle `j` ends: the number of cycles that
      completed. A cycle's result, success or error alike, is dropped and
      the next cycle starts; only a cycle that never completes stops the
      count. */
  function KeepAlive(outcomes: nat -> Run<()>, i: nat, horizon: nat): (n: nat)
    requires i <= horizon
    ensures i <= n <= horizon
    ensures forall j :: i <= j < n ==> outcomes(j).Returned?
    ensures n < horizon ==> outcomes(n) == Blocked
    decreases horizon - i
  {
    if i == horizon then horizon
    else match outcomes(i)
      case Blocked => i
      case Returned(_) => KeepAlive(outcomes, i + 1, horizon)
  }

  /** Errors are swallowed: whatever the completed cycles returned, ok or
      error, the keep-alive loop runs to the horizon unless a cycle blocks. */
  lemma KeepAliveSwallowsErrors(outcomes: nat -> Run<()>, horizon: nat)
    ensures KeepAlive(outcomes, 0, horizon) == horizon <==>
              forall j :: 0 <= j < horizon ==> outcomes(j).Returned?
  {
  }

  /** The outcome of every relay cycle of the driver. */
  function CycleOutcomes(pid: Pid, depth: uint8, sm: SignalMap, cycles: nat -> CycleEnv): nat -> Run<()> {
    (j: nat) => PropagateToAll(pid, depth, sm, cycles(j)).result
  }

  /** The pid the driver watches: the given one, which takes precedence,
      or the pid of the command it spawns. */
  function Watched(opts: Opts, spawner: Launch -> Result<Pid>): SpawnOutcome
    requires opts.pid.Some? || opts.cmd.Some?
  {
    if opts.pid.Some? then SpawnOutcome(None, Ok(opts.pid.value))
    else SpawnCommand(opts.cmd.value, spawner)
  }

  /** `main`, with the pid or command given, the signal `send_signal()`
      yields, the answers to spawning, and the environment of each cycle;
      keep-alive mode is observed for `horizon` cycles. */
  function Main(opts: Opts, sendSignal: Signal, spawner: Launch -> Result<Pid>, cycles: nat -> CycleEnv, horizon: nat): (r: MainRun)
    requires opts.pid.Some? || opts.cmd.Some?
    ensures opts.pid.Some? ==> r.launched == None && Watched(opts, spawner).result == Ok(opts.pid.value)
    ensures opts.pid.None? ==> Watched(opts, spawner) == SpawnCommand(opts.cmd.value, spawner)
    ensures opts.pid.None? ==> r.launched == SpawnCommand(opts.cmd.value, spawner).launched
    ensures opts.pid.None? && (|opts.cmd.value| == 0 || SplitWhitespace(opts.cmd.value) != []) ==>
              var spawned := SpawnChild(opts.cmd.value, spawner);
              r.launched == spawned.launched &&
              (spawned.result.Err? ==> r.status == Exited(Err(spawned.result.error)))
    ensures Watched(opts, spawner).result.Err? ==> r.status == Exited(Err(Watched(opts, spawner).result.error))
    ensures opts.keepAlive && r.status.Exited? ==>
              opts.pid.None? && r.status.result.Err? &&
              SpawnCommand(opts.cmd.value, spawner).result == Err(r.status.result.error)
    ensures opts.keepAlive && Watched(opts, spawner).result.Ok? ==>
              r.status.Running? && r.status.completedCycles <= horizon &&
              (r.status.completedCycles == horizon <==>
                 forall j :: 0 <= j < horizon ==>
                   CycleOutcomes(Watched(opts, spawner).result.value, opts.depth,
                                 SignalMap(opts.listenSignal, sendSignal), cycles)(j).Returned?)
    ensures opts.keepAlive && Watched(opts, spawner).result.Ok? ==>
              var outs := CycleOutcomes(Watched(opts, spawner).result.value, opts.depth,
                                        SignalMap(opts.listenSignal, sendSignal), cycles);
              r.status.Running? &&
              (forall j :: 0 <= j < r.status.completedCycles ==> outs(j).Returned?) &&
              (r.status.completedCycles < horizon ==> outs(r.status.completedCycles) == Blocked)
    ensures !opts.keepAlive && Watched(opts, spawner).result.Ok? ==>
              var cycle := PropagateToAll(Watched(opts, spawner).result.value, opts.depth,
                                          SignalMap(opts.listenSignal, sendSignal), cycles(0));
              (cycle.result.Returned? ==> r.status == Exited(cycle.result.result)) &&
              (cycle.result.Blocked? ==> r.status == Running(0))
  {
    var spawned := Watched(opts, spawner);
    match spawned.result
    case Err(e) => MainRun(spawned.launched, Exited(Err(e)))
    case Ok(pid) =>
      var sm := SignalMap(opts.listenSignal, sendSignal);
      if opts.keepAlive then
        KeepAliveSwallowsErrors(CycleOutcomes(pid, opts.depth, sm, cycles), horizon);
        MainRun(spawned.launched, Running(KeepAlive(CycleOutcomes(pid, opts.depth, sm, cycles), 0, horizon)))
      else
        match PropagateToAll(pid, opts.depth, sm, cycles(0)).result
        case Blocked => MainRun(spawned.launched, Running(0))
        case Returned(res) => MainRun(spawned.launched, Exited(res))
  }
}

=== FILE: listener.dfy ===
/** The tracer-based wait for one signal on one pid (`SignalListener` in
    src/listener.rs). The tracing calls are replaced by the answers they give:
    one answer for each of the three attach calls, then one step per loop
    iteration (the resume and the wait that follows it). */
module Listener {
  import opened Types

  /** The wait statuses a `waitpid` can report. */
  datatype WaitStatus =
    | Exited(pid: Pid, code: int)
    | Signaled(pid: Pid, signal: Signal, coreDumped: bool)
    | Stopped(pid: Pid, signal: Signal)
    | PtraceEvent(pid: Pid, signal: Signal, event: int)
    | PtraceSyscall(pid: Pid)
    | Continued(pid: Pid)
    | StillAlive

  /** The statuses that carry a signal. */
  predicate CarriesSignal(status: WaitStatus) {
    status.Signaled? || status.Stopped? || status.PtraceEvent?
  }

  /** `parse_status`: the signal a status reports, if it reports one. */
  function ParseStatus(status: WaitStatus): (r: Option<Signal>)
    ensures r.Some? <==> CarriesSignal(status)
    ensures r.Some? ==> r.value == status.signal
  {
    match status
    case Signaled(_, s, _) => Some(s)
    case Stopped(_, s) => Some(s)
    case PtraceEvent(_, s, _) => Some(s)
    case _ => None
  }

  /** The cases exercised by the listener's unit tests (signal 15 is SIGTERM). */
  lemma ParseStatusCases()
    ensures ParseStatus(Signaled(0, 15, true)) == Some(15)
    ensures ParseStatus(Stopped(0, 15)) == Some(15)
    ensures ParseStatus(PtraceEvent(0, 15, 0)) == Some(15)
    ensures ParseStatus(StillAlive) == None
  {
  }

  /** Answers to the attach sequence: `ptrace::attach`, the `waitpid` for the
      attach stop (its status is not looked at), and `ptrace::setoptions`. */
  datatype AttachTrace = AttachTrace(attach: Result<()>, initialWait: Result<WaitStatus>, setOptions: Result<()>)

  /** `attach_to_process`: the three calls in order, the first failure ends it. */
  function AttachToProcess(a: AttachTrace): (r: Result<()>)
    ensures r.Ok? <==> a.attach.Ok? && a.initialWait.Ok? && a.setOptions.Ok?
    ensures a.attach.Err? ==> r == Err(a.attach.error)
    ensures a.attach.Ok? && a.initialWait.Err? ==> r == Err(a.initialWait.error)
    ensures a.attach.Ok? && a.initialWait.Ok? && a.setOptions.Err? ==> r == Err(a.setOptions.error)
  {
    match a.attach
    case Err(e) => Err(e)
    case Ok(_) =>
      match a.initialWait
      case Err(e) => Err(e)
      case Ok(_) => a.setOptions
  }

  /** One iteration of the listen loop: either `ptrace::syscall` fails, or it
      succeeds and `waitpid` answers. */
  datatype LoopStep = ResumeFailed(error: Error) | Waited(status: Result<WaitStatus>)

  /** The step reports the awaited signal. */
  predicate Matches(signal: Signal, step: LoopStep) {
    step.Waited? && step.status.Ok? && ParseStatus(step.status.value) == Some(signal)
  }

  /** One of the two calls of the step fails. */
  predicate Fails(step: LoopStep) {
    step.ResumeFailed? || step.status.Err?
  }

  function StepError(step: LoopStep): Error
    requires Fails(step)
  {
    if step.ResumeFailed? then step.error else step.status.error
  }

  /** The step neither fails nor reports the signal: the loop goes on. */
  predicate Passes(signal: Signal, step: LoopStep) {
    !Fails(step) && !Matches(signal, step)
  }

  /** Every step before index `k` lets the loop go on. */
  predicate QuietBefore(signal: Signal, steps: seq<LoopStep>, k: nat)
    requires k <= |steps|
  {
    forall j :: 0 <= j < k ==> Passes(signal, steps[j])
  }

  /** The loop body run over the remaining steps. */
  function Observe(signal: Signal, steps: seq<LoopStep>): Run<ListenStatus>
    decreases |steps|
  {
    if |steps| == 0 then Blocked
    else match steps[0]
      case ResumeFailed(e) => Returned(Err(e))
      case Waited(Err(e)) => Returned(Err(e))
      case Waited(Ok(status)) =>
        match ParseStatus(status)
        case Some(s) => if s == signal then Returned(Ok(Found)) else Observe(signal, steps[1..])
        case None => Observe(signal, steps[1..])
  }

  /** `listen`: attach, then wait for the signal. */
  function Listen(signal: Signal, attach: AttachTrace, steps: seq<LoopStep>): (r: Run<ListenStatus>)
    ensures AttachToProcess(attach).Err? ==> r == Returned(Err(AttachToProcess(attach).error))
    ensures r != Returned(Ok(NotFound))
    ensures r == Returned(Ok(Found)) <==>
              AttachToProcess(attach).Ok? &&
              exists k :: 0 <= k < |steps| && Matches(signal, steps[k]) && QuietBefore(signal, steps, k)
    ensures r == Blocked <==> AttachToProcess(attach).Ok? && QuietBefore(signal, steps, |steps|)
    ensures forall e :: r == Returned(Err(e)) <==>
              AttachToProcess(attach) == Err(e) ||
              (AttachToProcess(attach).Ok? &&
               exists k :: 0 <= k < |steps| && Fails(steps[k]) && StepError(steps[k]) == e && QuietBefore(signal, steps, k))
  {
    ObserveFirstDecisive(signal, steps);
    match AttachToProcess(attach)
    case Err(e) => Returned(Err(e))
    case Ok(_) => Observe(signal, steps)
  }

  /** The index of the first step that ends the loop, `|steps|` if none does. */
  function FirstDecisive(signal: Signal, steps: seq<LoopStep>): (k: nat)
    ensures k <= |steps|
    ensures QuietBefore(signal, steps, k)
    ensures k < |steps| ==> !Passes(signal, steps[k])
    decreases |steps|
  {
    if |steps| == 0 || !Passes(signal, steps[0]) then 0
    else 1 + FirstDecisive(signal, steps[1..])
  }

  /** Two indices with nothing decisive before them, both decisive or past
      the end, are the same index. */
  lemma FirstDecisiveUnique(signal: Signal, steps: seq<LoopStep>, k: nat)
    requires k <= |steps| && QuietBefore(signal, steps, k)
    requires k < |steps| ==> !Passes(signal, steps[k])
    ensures k == FirstDecisive(signal, steps)
  {
  }

  /** The loop's outcome is decided by the first decisive step alone: the
      signal found, or the failing call's error; with none, still waiting. */
  lemma {:induction false} ObserveIsFirstDecisive(signal: Signal, steps: seq<LoopStep>)
    ensures var k := FirstDecisive(signal, steps);
      Observe(signal, steps) ==
        if k == |steps| then Blocked
        else if Matches(signal, steps[k]) then Returned(Ok(Found))
        else Returned(Err(StepError(steps[k])))
    decreases |steps|
  {
    if |steps| > 0 && Passes(signal, steps[0]) {
      ObserveIsFirstDecisive(signal, steps[1..]);
      assert steps[1..][FirstDecisive(signal, steps[1..])..] == steps[FirstDecisive(signal, steps)..];
    }
  }

  /** The first-match characterisation of the loop, in both directions. */
  lemma ObserveFirstDecisive(signal: Signal, steps: seq<LoopStep>)
    ensures Observe(signal, steps) != Returned(Ok(NotFound))
    ensures Observe(signal, steps) == Returned(Ok(Found)) <==>
              exists k :: 0 <= k < |steps| && Matches(signal, steps[k]) && QuietBefore(signal, steps, k)
    ensures Observe(signal, steps) == Blocked <==> QuietBefore(signal, steps, |steps|)
    ensures forall e :: Observe(signal, steps) == Returned(Err(e)) <==>
              exists k :: 0 <= k < |steps| && Fails(steps[k]) && StepError(steps[k]) == e && QuietBefore(signal, steps, k)
  {
    ObserveIsFirstDecisive(signal, steps);
    var f := FirstDecisive(signal, steps);
    forall k | 0 <= k < |steps| && !Passes(signal, steps[k]) && QuietBefore(signal, steps, k)
      ensures k == f
    {
      FirstDecisiveUnique(signal, steps, k);
    }
    if f == |steps| {
      assert QuietBefore(signal, steps, |steps|);
    } else {
      assert !QuietBefore(signal, steps, |steps|);
    }
    if QuietBefore(signal, steps, |steps|) {
      FirstDecisiveUnique(signal, steps, |steps|);
    }
  }

  /** Once the loop has returned, later answers make no difference. */
  lemma {:induction false} ObserveIgnoresLaterSteps(signal: Signal, steps: seq<LoopStep>, later: seq<LoopStep>)
    requires Observe(signal, steps).Returned?
    ensures Observe(signal, steps + later) == Observe(signal, steps)
    decreases |steps|
  {
    assert (steps + later)[0] == steps[0];
    if Passes(signal, steps[0]) {
      assert (steps + later)[1..] == steps[1..] + later;
      ObserveIgnoresLaterSteps(signal, steps[1..], later);
    }
  }
}

=== FILE: process.dfy ===
/** Discovery of a process's descendants grouped by depth: the depth map that
    `get_child_pids_full_tree` builds by depth-first expansion, and the lookup
    `get_child_pids_at_depth` on top of it.

    The child-listing capability (`pgrep -P`) is replaced by a finite snapshot
    of the process tree in which every pid either lists its children or fails
    to list them. */
module Process {
  import opened Types

  /** A snapshot of the tree below a pid: `Node` lists its direct children in
      the order the listing capability reports them; `Unlistable` is a pid
      whose child listing fails with `error`. */
  datatype ProcTree = Node(pid: Pid, children: seq<ProcTree>) | Unlistable(pid: Pid, error: Error)

  function Max(a: nat, b: nat): nat { if a < b then b else a }

  /** The pids of sibling subtrees, in listing order. */
  function Pids(cs: seq<ProcTree>): (r: ChildPids)
    ensures |r| == |cs|
    ensures forall i :: 0 <= i < |cs| ==> r[i] == cs[i].pid
  {
    if |cs| == 0 then [] else [cs[0].pid] + Pids(cs[1..])
  }

  // ---------------------------------------------------------------------
  // Reference definitions: what the depth map is meant to describe.
  // ---------------------------------------------------------------------

  /** Length of the longest parent-to-child path below the root. */
  function Height(t: ProcTree): nat {
    match t
    case Unlistable(_, _) => 0
    case Node(_, cs) => if |cs| == 0 then 0 else 1 + MaxHeight(cs)
  }

  function MaxHeight(cs: seq<ProcTree>): nat {
    if |cs| == 0 then 0 else Max(Height(cs[0]), MaxHeight(cs[1..]))
  }

  /** The pids at distance `d` below the root, in depth-first preorder. */
  function AtDepth(t: ProcTree, d: nat): ChildPids {
    if d == 0 then [t.pid]
    else match t
      case Unlistable(_, _) => []
      case Node(_, cs) => AtDepthAll(cs, d - 1)
  }

  function AtDepthAll(cs: seq<ProcTree>, d: nat): ChildPids {
    if |cs| == 0 then [] else AtDepth(cs[0], d) + AtDepthAll(cs[1..], d)
  }

  /** Every pid strictly below the root, in depth-first preorder. */
  function Descendants(t: ProcTree): seq<Pid> {
    match t
    case Unlistable(_, _) => []
    case Node(_, cs) => DescendantsAll(cs)
  }

  function DescendantsAll(cs: seq<ProcTree>): seq<Pid> {
    if |cs| == 0 then [] else [cs[0].pid] + Descendants(cs[0]) + DescendantsAll(cs[1..])
  }

  /** The listing errors met by a depth-first walk that does not stop at the
      first one, in visiting order. */
  function Failures(t: ProcTree): seq<Error> {
    match t
    case Unlistable(_, e) => [e]
    case Node(_, cs) => FailuresAll(cs)
  }

  function FailuresAll(cs: seq<ProcTree>): seq<Error> {
    if |cs| == 0 then [] else Failures(cs[0]) + FailuresAll(cs[1..])
  }

  /** Every pid of the snapshot lists its children successfully. */
  predicate Listable(t: ProcTree) {
    Failures(t) == []
  }

  /** `t` read as the tree of `pid`: the root is `pid`, and what lies below it
      (the listing, or the error of listing) is `t`'s. */
  function Rooted(pid: Pid, t: ProcTree): (r: ProcTree)
    ensures r.pid == pid && r.Node? == t.Node?
    ensures r.Node? ==> r.children == t.children
    ensures r.Unlistable? ==> r.error == t.error
  {
    match t
    case Node(_, cs) => Node(pid, cs)
    case Unlistable(_, e) => Unlistable(pid, e)
  }

  /** Only the root changes when a tree is re-rooted. */
  lemma RootedKeepsBelow(pid: Pid, t: ProcTree)
    ensures Descendants(Rooted(pid, t)) == Descendants(t)
    ensures Failures(Rooted(pid, t)) == Failures(t)
    ensures Height(Rooted(pid, t)) == Height(t)
    ensures forall d: nat :: d >= 1 ==> AtDepth(Rooted(pid, t), d) == AtDepth(t, d)
  {
  }

  // ---------------------------------------------------------------------
  // The depth map as a pure function.
  // ---------------------------------------------------------------------

  /** Entry `i` of a level sequence, or nothing past its end. */
  function At(ls: seq<ChildPids>, i: int): ChildPids {
    if 0 <= i < |ls| then ls[i] else []
  }

  /** Level-wise concatenation of two level sequences. */
  function Zip(a: seq<ChildPids>, b: seq<ChildPids>): (r: seq<ChildPids>)
    ensures |r| == Max(|a|, |b|)
    ensures forall i :: 0 <= i < |r| ==> r[i] == At(a, i) + At(b, i)
  {
    seq(Max(|a|, |b|), i requires 0 <= i < Max(|a|, |b|) => At(a, i) + At(b, i))
  }

  function Flatten(ls: seq<ChildPids>): seq<Pid> {
    if |ls| == 0 then [] else ls[0] + Flatten(ls[1..])
  }

  /** The levels below `t`: entry `i` holds the pids at depth `i + 1`. The
      walk stops at the first pid whose listing fails. */
  function Levels(t: ProcTree): Result<seq<ChildPids>> {
    match t
    case Unlistable(_, e) => Err(e)
    case Node(_, cs) =>
      if |cs| == 0 then Ok([])
      else match ChildLevels(cs)
        case Err(e) => Err(e)
        case Ok(deeper) => Ok([Pids(cs)] + deeper)
  }

  /** The levels below a list of siblings, relative to the siblings' own depth,
      siblings' contributions concatenated level by level. */
  function ChildLevels(cs: seq<ProcTree>): Result<seq<ChildPids>> {
    if |cs| == 0 then Ok([])
    else match Levels(cs[0])
      case Err(e) => Err(e)
      case Ok(first) =>
        match ChildLevels(cs[1..])
        case Err(e) => Err(e)
        case Ok(rest) => Ok(Zip(first, rest))
  }

  /** `lo <= k < lo + n`. */
  predicate InBand(k: int, lo: int, n: int) {
    lo <= k < lo + n
  }

  /** The depths `lo .. lo + n - 1`. */
  function Band(lo: nat, n: nat): (b: set<nat>)
    ensures forall k: nat :: k in b <==> InBand(k, lo, n)
    decreases n
  {
    if n == 0 then {} else {lo} + Band(lo + 1, n - 1)
  }

  /** The level holding depth `d`. */
  function LevelAt(ls: seq<ChildPids>, d: int): ChildPids {
    At(ls, d - 1)
  }

  /** Keys `1 ..= |ls|`, key `d` holding level `d - 1`. */
  function ToMap(ls: seq<ChildPids>): DepthMap {
    map d: nat | 1 <= d <= |ls| :: LevelAt(ls, d)
  }

  /** The depth map of a snapshot, built fresh per call. */
  function ResolveTree(t: ProcTree): (r: Result<DepthMap>)
    ensures r.Err? <==> !Listable(t)
    ensures r.Err? ==> r.error == Failures(t)[0]
    ensures r.Ok? ==> forall d :: d in r.value <==> 1 <= d <= Height(t)
    ensures r.Ok? ==> forall d :: d in r.value ==> r.value[d] == AtDepth(t, d) && r.value[d] != []
    ensures t.Node? && t.children == [] ==> r == Ok(map[])
    ensures t.Node? && t.children != [] && r.Ok? ==> 1 in r.value && r.value[1] == Pids(t.children)
  {
    LevelsSpec(t);
    DepthOneIsChildren(t);
    match Levels(t)
    case Err(e) => Err(e)
    case Ok(ls) => Ok(ToMap(ls))
  }

  /** `get_child_pids_at_depth`: the depth-map entry at `depth`, if any. */
  function ChildPidsAtDepth(t: ProcTree, depth: uint8): (r: Result<Option<ChildPids>>)
    ensures r.Err? <==> !Listable(t)
    ensures r.Ok? ==> (r.value.Some? <==> 1 <= depth <= Height(t))
    ensures depth == 0 ==> r.Err? || r.value == None
    ensures r.Ok? && r.value.Some? ==> r.value.value == AtDepth(t, depth) && r.value.value != []
  {
    match ResolveTree(t)
    case Err(e) => Err(e)
    case Ok(m) => if depth in m then Ok(Some(m[depth])) else Ok(None)
  }

  // ---------------------------------------------------------------------
  // Properties of the pure depth map.
  // ---------------------------------------------------------------------

  lemma {:induction false} AtDepthAllZero(cs: seq<ProcTree>)
    ensures AtDepthAll(cs, 0) == Pids(cs)
  {
    if |cs| > 0 {
      AtDepthAllZero(cs[1..]);
    }
  }

  lemma DepthOneIsChildren(t: ProcTree)
    ensures t.Node? ==> AtDepth(t, 1) == Pids(t.children)
  {
    if t.Node? {
      AtDepthAllZero(t.children);
    }
  }

  /** Past the height nothing is found. */
  lemma {:induction false} AtDepthBeyond(t: ProcTree, d: nat)
    requires d > Height(t)
    ensures AtDepth(t, d) == []
    decreases t, 1
  {
    match t
    case Unlistable(_, _) =>
    case Node(_, cs) =>
      if |cs| > 0 {
        AtDepthAllBeyond(cs, d - 1);
      }
  }

  lemma {:induction false} AtDepthAllBeyond(cs: seq<ProcTree>, d: nat)
    requires d > MaxHeight(cs)
    ensures AtDepthAll(cs, d) == []
    decreases cs, 0
  {
    if |cs| > 0 {
      AtDepthBeyond(cs[0], d);
      AtDepthAllBeyond(cs[1..], d);
    }
  }

  /** The levels fail exactly when some listing fails, with the first such
      error; otherwise there is one non-empty level per unit of height, level
      `i` holding the pids at depth `i + 1`. */
  lemma {:induction false} LevelsSpec(t: ProcTree)
    ensures Levels(t).Err? <==> Failures(t) != []
    ensures Levels(t).Err? ==> Levels(t).error == Failures(t)[0]
    ensures Levels(t).Ok? ==> |Levels(t).value| == Height(t)
    ensures Levels(t).Ok? ==> forall i :: 0 <= i < |Levels(t).value| ==>
              Levels(t).value[i] == AtDepth(t, i + 1) && Levels(t).value[i] != []
    decreases t, 1
  {
    match t
    case Unlistable(_, _) =>
    case Node(p, cs) =>
      if |cs| > 0 {
        ChildLevelsSpec(cs);
        NodeLevelsError(p, cs);
        NodeLevelsShape(p, cs);
      }
  }

  /** A node with children fails exactly as its children do. */
  lemma NodeLevelsError(p: Pid, cs: seq<ProcTree>)
    requires |cs| > 0
    requires ChildLevels(cs).Err? <==> FailuresAll(cs) != []
    requires ChildLevels(cs).Err? ==> ChildLevels(cs).error == FailuresAll(cs)[0]
    ensures Levels(Node(p, cs)).Err? <==> Failures(Node(p, cs)) != []
    ensures Levels(Node(p, cs)).Err? ==> Levels(Node(p, cs)).error == Failures(Node(p, cs))[0]
  {
  }

  /** A node's levels are its children's pids followed by their levels. */
  lemma NodeLevelsShape(p: Pid, cs: seq<ProcTree>)
    requires |cs| > 0
    requires ChildLevels(cs).Ok? ==> |ChildLevels(cs).value| == MaxHeight(cs)
    requires ChildLevels(cs).Ok? ==> forall i :: 0 <= i < |ChildLevels(cs).value| ==>
               ChildLevels(cs).value[i] == AtDepthAll(cs, i + 1) && ChildLevels(cs).value[i] != []
    ensures Levels(Node(p, cs)).Ok? ==> |Levels(Node(p, cs)).value| == Height(Node(p, cs))
    ensures Levels(Node(p, cs)).Ok? ==> forall i :: 0 <= i < |Levels(Node(p, cs)).value| ==>
              Levels(Node(p, cs)).value[i] == AtDepth(Node(p, cs), i + 1) && Levels(Node(p, cs)).value[i] != []
  {
    if ChildLevels(cs).Ok? {
      AtDepthAllZero(cs);
      var deeper := ChildLevels(cs).value;
      var ls := [Pids(cs)] + deeper;
      assert Levels(Node(p, cs)).value == ls;
      forall i | 0 <= i < |ls|
        ensures ls[i] == AtDepth(Node(p, cs), i + 1) && ls[i] != []
      {
        if i > 0 {
          assert ls[i] == deeper[i - 1];
        }
      }
    }
  }

  lemma {:induction false} ChildLevelsSpec(cs: seq<ProcTree>)
    ensures ChildLevels(cs).Err? <==> FailuresAll(cs) != []
    ensures ChildLevels(cs).Err? ==> ChildLevels(cs).error == FailuresAll(cs)[0]
    ensures ChildLevels(cs).Ok? ==> |ChildLevels(cs).value| == MaxHeight(cs)
    ensures ChildLevels(cs).Ok? ==> forall i :: 0 <= i < |ChildLevels(cs).value| ==>
              ChildLevels(cs).value[i] == AtDepthAll(cs, i + 1) && ChildLevels(cs).value[i] != []
    decreases cs, 0
  {
    if |cs| > 0 {
      LevelsSpec(cs[0]);
      ChildLevelsSpec(cs[1..]);
      if Levels(cs[0]).Ok? && ChildLevels(cs[1..]).Ok? {
        ZipLevels(cs, Levels(cs[0]).value, ChildLevels(cs[1..]).value);
      }
    }
  }

  /** The first sibling's levels zipped with the other siblings' levels are
      the levels of all the siblings. */
  lemma ZipLevels(cs: seq<ProcTree>, first: seq<ChildPids>, rest: seq<ChildPids>)
    requires |cs| > 0
    requires |first| == Height(cs[0])
    requires forall i :: 0 <= i < |first| ==> first[i] == AtDepth(cs[0], i + 1) && first[i] != []
    requires |rest| == MaxHeight(cs[1..])
    requires forall i :: 0 <= i < |rest| ==> rest[i] == AtDepthAll(cs[1..], i + 1) && rest[i] != []
    ensures |Zip(first, rest)| == MaxHeight(cs)
    ensures forall i :: 0 <= i < |Zip(first, rest)| ==>
              Zip(first, rest)[i] == AtDepthAll(cs, i + 1) && Zip(first, rest)[i] != []
  {
    var z := Zip(first, rest);
    forall i | 0 <= i < |z|
      ensures z[i] == AtDepthAll(cs, i + 1) && z[i] != []
    {
      ZipLevelAt(cs, first, rest, i);
    }
  }

  /** One level of `ZipLevels`: a sibling too shallow for the level adds
      nothing to it. */
  lemma ZipLevelAt(cs: seq<ProcTree>, first: seq<ChildPids>, rest: seq<ChildPids>, i: nat)
    requires |cs| > 0 && i < |first| + |rest|
    requires |first| == Height(cs[0]) && (i < |first| ==> first[i] == AtDepth(cs[0], i + 1) && first[i] != [])
    requires |rest| == MaxHeight(cs[1..]) && (i < |rest| ==> rest[i] == AtDepthAll(cs[1..], i + 1) && rest[i] != [])
    ensures At(first, i) + At(rest, i) == AtDepthAll(cs, i + 1)
    ensures i < |first| || i < |rest| ==> At(first, i) + At(rest, i) != []
  {
    if i >= |first| {
      AtDepthBeyond(cs[0], i + 1);
    }
    if i >= |rest| {
      AtDepthAllBeyond(cs[1..], i + 1);
    }
  }

  lemma {:induction false} FlattenAppend(a: seq<ChildPids>, b: seq<ChildPids>)
    ensures Flatten(a + b) == Flatten(a) + Flatten(b)
  {
    if |a| > 0 {
      assert (a + b)[0] == a[0];
      assert (a + b)[1..] == a[1..] + b;
      FlattenAppend(a[1..], b);
      calc {
        Flatten(a + b);
        (a + b)[0] + Flatten((a + b)[1..]);
        a[0] + Flatten(a[1..] + b);
        a[0] + (Flatten(a[1..]) + Flatten(b));
        (a[0] + Flatten(a[1..])) + Flatten(b);
      }
    } else {
      assert a + b == b;
    }
  }

  lemma {:induction false} FlattenZip(a: seq<ChildPids>, b: seq<ChildPids>)
    ensures multiset(Flatten(Zip(a, b))) == multiset(Flatten(a)) + multiset(Flatten(b))
    decreases |a| + |b|
  {
    if |a| == 0 {
      forall i | 0 <= i < |b|
        ensures Zip(a, b)[i] == b[i]
      {
        assert Zip(a, b)[i] == [] + b[i];
      }
      assert Zip(a, b) == b;
    } else if |b| == 0 {
      forall i | 0 <= i < |a|
        ensures Zip(a, b)[i] == a[i]
      {
        assert Zip(a, b)[i] == a[i] + [];
      }
      assert Zip(a, b) == a;
    } else {
      var z := Zip(a, b);
      assert z[1..] == Zip(a[1..], b[1..]);
      FlattenZip(a[1..], b[1..]);
    }
  }

  /** Every descendant occurs in the levels exactly as often as in the tree. */
  lemma {:induction false} LevelsCoverDescendants(t: ProcTree)
    requires Levels(t).Ok?
    ensures multiset(Flatten(Levels(t).value)) == multiset(Descendants(t))
    decreases t, 1
  {
    match t
    case Node(_, cs) =>
      if |cs| > 0 {
        ChildLevelsCoverDescendants(cs);
        var ls := Levels(t).value;
        assert ls[1..] == ChildLevels(cs).value;
      }
  }

  lemma {:induction false} ChildLevelsCoverDescendants(cs: seq<ProcTree>)
    requires ChildLevels(cs).Ok?
    ensures multiset(Pids(cs)) + multiset(Flatten(ChildLevels(cs).value)) == multiset(DescendantsAll(cs))
    decreases cs, 0
  {
    if |cs| > 0 {
      LevelsCoverDescendants(cs[0]);
      ChildLevelsCoverDescendants(cs[1..]);
      FlattenZip(Levels(cs[0]).value, ChildLevels(cs[1..]).value);
      assert Pids(cs) == [cs[0].pid] + Pids(cs[1..]);
    }
  }

  lemma {:induction false} ToMapSize(ls: seq<ChildPids>)
    ensures |ToMap(ls)| == |ls|
  {
    if |ls| > 0 {
      var p := ls[..|ls| - 1];
      assert ToMap(ls) == ToMap(p)[|ls| := ls[|ls| - 1]];
      ToMapSize(p);
    }
  }

  /** A resolvable tree's depth map is its levels read as a map, one level
      per unit of height. */
  lemma ResolveIsLevels(t: ProcTree)
    requires Listable(t)
    ensures Levels(t).Ok? && ResolveTree(t) == Ok(ToMap(Levels(t).value))
    ensures |Levels(t).value| == Height(t)
  {
    LevelsSpec(t);
  }

  /** The depth map has one key per level, and the entries, read in ascending
      depth order, list every descendant exactly as often as the tree does. */
  lemma DepthMapCoversDescendants(t: ProcTree)
    requires Listable(t)
    ensures |ResolveTree(t).value| == Height(t)
    ensures ResolveTree(t).value == ToMap(Levels(t).value)
    ensures multiset(Flatten(Levels(t).value)) == multiset(Descendants(t))
    ensures |Flatten(Levels(t).value)| == |Descendants(t)|
  {
    LevelsSpec(t);
    ToMapSize(Levels(t).value);
    LevelsCoverDescendants(t);
    assert |multiset(Flatten(Levels(t).value))| == |multiset(Descendants(t))|;
  }

  // ---------------------------------------------------------------------
  // The accumulator-passing walk, as `get_child_pids_full_tree` does it.
  // ---------------------------------------------------------------------

  /** The entry at `depth`, or an empty one if there is none yet. */
  function Entry(acc: DepthMap, depth: nat): ChildPids {
    if depth in acc then acc[depth] else []
  }

  /** One call of `get_child_pids_full_tree(pid, Some(acc), Some(depth))`:
      list the children; with none, return the accumulator as is; otherwise
      make sure `depth` has an entry and visit the children in order. */
  function FullTree(t: ProcTree, acc: DepthMap, depth: nat): Result<DepthMap>
    decreases t, 1
  {
    match t
    case Unlistable(_, e) => Err(e)
    case Node(_, cs) =>
      if |cs| == 0 then Ok(acc)
      else VisitChildren(cs, acc[depth := Entry(acc, depth)], depth)
  }

  /** The loop over the children: push the child at `depth`, then expand it
      at `depth + 1` into the same accumulator; the first failure ends it. */
  function VisitChildren(cs: seq<ProcTree>, acc: DepthMap, depth: nat): Result<DepthMap>
    decreases cs, 0
  {
    if |cs| == 0 then Ok(acc)
    else
      var pushed := acc[depth := Entry(acc, depth) + [cs[0].pid]];
      match FullTree(cs[0], pushed, depth + 1)
      case Err(e) => Err(e)
      case Ok(acc') => VisitChildren(cs[1..], acc', depth)
  }

  /** `acc` with level `i` of `ls` appended to the entry at `depth + i`. */
  function Absorb(acc: DepthMap, ls: seq<ChildPids>, depth: nat): (r: DepthMap)
    ensures forall k: nat :: k in r <==> k in acc || InBand(k, depth, |ls|)
    ensures forall k: nat :: k in r ==> r[k] == Entry(acc, k) + At(ls, k - depth)
  {
    map k: nat | k in acc.Keys + Band(depth, |ls|) :: Entry(acc, k) + At(ls, k - depth)
  }

  /** Two depth maps agree when they have the same keys and the same entries. */
  lemma SameMaps(m: DepthMap, n: DepthMap)
    requires forall k: nat :: k in m <==> k in n
    requires forall k: nat :: k in m ==> m[k] == n[k]
    ensures m == n
  {
  }

  lemma AbsorbNothing(acc: DepthMap, depth: nat)
    ensures Absorb(acc, [], depth) == acc
  {
    var m := Absorb(acc, [], depth);
    forall k: nat | k in m
      ensures m[k] == acc[k]
    {
      assert m[k] == acc[k] + [];
    }
    SameMaps(m, acc);
  }

  lemma AbsorbEmptyLevel(acc: DepthMap, depth: nat)
    requires depth in acc
    ensures Absorb(acc, [[]], depth) == acc
  {
    var m := Absorb(acc, [[]], depth);
    forall k: nat
      ensures k in m <==> k in acc
    {
      assert InBand(k, depth, 1) ==> k == depth;
    }
    forall k: nat | k in m
      ensures m[k] == acc[k]
    {
      var e: ChildPids := [];
      assert At([e], k - depth) == [];
      assert Entry(acc, k) == acc[k];
      assert m[k] == acc[k] + [];
    }
    SameMaps(m, acc);
  }

  lemma AbsorbEnsuredKey(acc: DepthMap, ls: seq<ChildPids>, depth: nat)
    requires |ls| > 0
    ensures Absorb(acc[depth := Entry(acc, depth)], ls, depth) == Absorb(acc, ls, depth)
  {
    var m := Absorb(acc[depth := Entry(acc, depth)], ls, depth);
    var n := Absorb(acc, ls, depth);
    assert InBand(depth, depth, |ls|);
    forall k: nat | k in m
      ensures m[k] == n[k]
    {
      assert Entry(acc[depth := Entry(acc, depth)], k) == Entry(acc, k);
    }
    SameMaps(m, n);
  }

  /** Pushing one child and expanding it, then visiting its siblings, absorbs
      the combined levels of all of them. */
  lemma AbsorbStep(acc: DepthMap, p: Pid, lc: seq<ChildPids>, ps: ChildPids, lr: seq<ChildPids>, depth: nat)
    ensures Absorb(Absorb(acc[depth := Entry(acc, depth) + [p]], lc, depth + 1), [ps] + lr, depth)
         == Absorb(acc, [[p] + ps] + Zip(lc, lr), depth)
  {
    var pushed := acc[depth := Entry(acc, depth) + [p]];
    var a2 := Absorb(pushed, lc, depth + 1);
    var lhs := Absorb(a2, [ps] + lr, depth);
    var rhs := Absorb(acc, [[p] + ps] + Zip(lc, lr), depth);
    forall k: nat
      ensures k in lhs <==> k in rhs
    {
      AbsorbStepKey(acc, p, lc, ps, lr, depth, k);
    }
    forall k: nat | k in lhs
      ensures lhs[k] == rhs[k]
    {
      AbsorbStepKey(acc, p, lc, ps, lr, depth, k);
      AbsorbStepEntry(acc, p, lc, ps, lr, depth, k);
    }
    SameMaps(lhs, rhs);
  }

  lemma AbsorbStepKey(acc: DepthMap, p: Pid, lc: seq<ChildPids>, ps: ChildPids, lr: seq<ChildPids>, depth: nat, k: nat)
    ensures k in Absorb(Absorb(acc[depth := Entry(acc, depth) + [p]], lc, depth + 1), [ps] + lr, depth)
       <==> k in Absorb(acc, [[p] + ps] + Zip(lc, lr), depth)
  {
    var z := Zip(lc, lr);
    if InBand(k, depth + 1, |lc|) || InBand(k, depth, 1 + |lr|) {
      assert InBand(k, depth, 1 + |z|);
    }
    if InBand(k, depth, 1 + |z|) && k != depth {
      assert InBand(k, depth + 1, |lc|) || InBand(k, depth, 1 + |lr|);
    }
  }

  lemma AtTail(x: ChildPids, ls: seq<ChildPids>, j: int)
    requires j >= 1
    ensures At([x] + ls, j) == At(ls, j - 1)
  {
  }

  lemma AtZip(a: seq<ChildPids>, b: seq<ChildPids>, i: int)
    ensures At(Zip(a, b), i) == At(a, i) + At(b, i)
  {
  }

  /** Reading an absorbed map: the old entry followed by the absorbed level. */
  lemma EntryOfAbsorb(acc: DepthMap, ls: seq<ChildPids>, depth: nat, k: nat)
    ensures Entry(Absorb(acc, ls, depth), k) == Entry(acc, k) + At(ls, k - depth)
  {
    if k !in Absorb(acc, ls, depth) {
      assert !InBand(k, depth, |ls|);
    }
  }

  lemma AbsorbStepEntry(acc: DepthMap, p: Pid, lc: seq<ChildPids>, ps: ChildPids, lr: seq<ChildPids>, depth: nat, k: nat)
    ensures Entry(Absorb(Absorb(acc[depth := Entry(acc, depth) + [p]], lc, depth + 1), [ps] + lr, depth), k)
         == Entry(Absorb(acc, [[p] + ps] + Zip(lc, lr), depth), k)
  {
    var pushed := acc[depth := Entry(acc, depth) + [p]];
    var a2 := Absorb(pushed, lc, depth + 1);
    EntryOfAbsorb(pushed, lc, depth + 1, k);
    EntryOfAbsorb(a2, [ps] + lr, depth, k);
    EntryOfAbsorb(acc, [[p] + ps] + Zip(lc, lr), depth, k);
    assert Entry(pushed, k) == if k == depth then Entry(acc, k) + [p] else Entry(acc, k);
    StepEntry(Entry(acc, k), p, lc, ps, lr, depth, k);
  }

  /** The entry arithmetic behind `AbsorbStep`, at one depth `k`. */
  lemma StepEntry(e: ChildPids, p: Pid, lc: seq<ChildPids>, ps: ChildPids, lr: seq<ChildPids>, depth: nat, k: nat)
    ensures (if k == depth then e + [p] else e) + At(lc, k - (depth + 1)) + At([ps] + lr, k - depth)
         == e + At([[p] + ps] + Zip(lc, lr), k - depth)
  {
    if k == depth {
      assert (e + [p]) + [] + ps == e + ([p] + ps);
    } else if k > depth {
      var j := k - depth;
      AtTail(ps, lr, j);
      AtTail([p] + ps, Zip(lc, lr), j);
      AtZip(lc, lr, j - 1);
      assert e + At(lc, j - 1) + At(lr, j - 1) == e + (At(lc, j - 1) + At(lr, j - 1));
    } else {
      assert e + [] + [] == e + [];
    }
  }

  lemma {:induction false} FullTreeAbsorbs(t: ProcTree, acc: DepthMap, depth: nat)
    ensures Levels(t).Err? ==> FullTree(t, acc, depth) == Err(Levels(t).error)
    ensures Levels(t).Ok? ==> FullTree(t, acc, depth) == Ok(Absorb(acc, Levels(t).value, depth))
    decreases t, 1
  {
    match t
    case Unlistable(_, _) =>
    case Node(_, cs) =>
      if |cs| == 0 {
        AbsorbNothing(acc, depth);
      } else {
        var acc0 := acc[depth := Entry(acc, depth)];
        VisitChildrenAbsorbs(cs, acc0, depth);
        if ChildLevels(cs).Ok? {
          AbsorbEnsuredKey(acc, [Pids(cs)] + ChildLevels(cs).value, depth);
        }
      }
  }

  lemma {:induction false} VisitChildrenAbsorbs(cs: seq<ProcTree>, acc: DepthMap, depth: nat)
    requires depth in acc
    ensures ChildLevels(cs).Err? ==> VisitChildren(cs, acc, depth) == Err(ChildLevels(cs).error)
    ensures ChildLevels(cs).Ok? ==>
              VisitChildren(cs, acc, depth) == Ok(Absorb(acc, [Pids(cs)] + ChildLevels(cs).value, depth))
    decreases cs, 0
  {
    if |cs| == 0 {
      assert [Pids(cs)] + ChildLevels(cs).value == [[]];
      AbsorbEmptyLevel(acc, depth);
    } else {
      var pushed := acc[depth := Entry(acc, depth) + [cs[0].pid]];
      FullTreeAbsorbs(cs[0], pushed, depth + 1);
      if Levels(cs[0]).Ok? {
        var a2 := Absorb(pushed, Levels(cs[0]).value, depth + 1);
        VisitChildrenAbsorbs(cs[1..], a2, depth);
        if ChildLevels(cs[1..]).Ok? {
          AbsorbStep(acc, cs[0].pid, Levels(cs[0]).value, Pids(cs[1..]), ChildLevels(cs[1..]).value, depth);
          assert Pids(cs) == [cs[0].pid] + Pids(cs[1..]);
        }
      }
    }
  }

  lemma AbsorbIntoEmpty(ls: seq<ChildPids>)
    ensures Absorb(map[], ls, 1) == ToMap(ls)
  {
    var m, n := Absorb(map[], ls, 1), ToMap(ls);
    forall k: nat
      ensures k in m <==> k in n
    {
      assert InBand(k, 1, |ls|) <==> 1 <= k <= |ls|;
    }
    forall k: nat | k in m
      ensures m[k] == n[k]
    {
      assert m[k] == [] + At(ls, k - 1);
    }
    SameMaps(m, n);
  }

  /** The mutable-accumulator walk started as `get_child_pids_full_tree(pid,
      None, None)` computes exactly the pure depth map, error included. */
  lemma FullTreeIsResolve(t: ProcTree)
    ensures FullTree(t, map[], 1) == ResolveTree(t)
  {
    FullTreeAbsorbs(t, map[], 1);
    if Levels(t).Ok? {
      AbsorbIntoEmpty(Levels(t).value);
    }
  }
}

=== FILE: propagate.dfy ===
/** The relay coordination of src/propagate.rs: choosing the target pids,
    running one worker per target (wait for the signal, then relay the send
    signal to every descendant of the target), and combining the workers'
    results. Threads are modelled sequentially: each worker's answers are an
    input, and joining the workers is a fold over their outcomes. */
module Propagate {
  import opened Types
  import opened Process
  import opened Listener

  /** The two signals a worker uses: the one it waits for, and the one
      `send_signal()` yields for the relay. */
  datatype SignalMap = SignalMap(listenSignal: Signal, sendSignal: Signal)

  /** One `kill` attempt during a relay, and whether it succeeded. */
  datatype Send = Send(pid: Pid, signal: Signal, delivered: bool)

  /** What one worker thread observes: the answers its listener gets, the
      process tree below its target when the relay resolves it (its root is
      read as the target, see `Rooted`), and which `kill` calls succeed. */
  datatype WorkerEnv = WorkerEnv(attach: AttachTrace, steps: seq<LoopStep>, tree: ProcTree, delivered: Pid -> bool)

  /** A worker's result and the sends it made. */
  datatype WorkerOutcome = WorkerOutcome(result: Run<()>, sends: seq<Send>)

  /** What one relay cycle observes: the successive trees seen while the
      target pids are being resolved (each read as the tree of the watched
      pid), and the environment of the worker started for the `i`-th target. */
  datatype CycleEnv = CycleEnv(snapshots: seq<ProcTree>, worker: nat -> WorkerEnv)

  /** A cycle's result and, per target in target order, its worker's sends. */
  datatype CycleOutcome = CycleOutcome(result: Run<()>, relays: seq<seq<Send>>)

  function SentPids(sends: seq<Send>): (r: seq<Pid>)
    ensures |r| == |sends|
    ensures forall i :: 0 <= i < |sends| ==> r[i] == sends[i].pid
  {
    seq(|sends|, i requires 0 <= i < |sends| => sends[i].pid)
  }

  /** The descendants of `t` in relay order: depth by depth, ascending, each
      depth in depth-first preorder. */
  function ByDepth(t: ProcTree): seq<Pid> {
    Flatten(seq(Height(t), i requires 0 <= i < Height(t) => AtDepth(t, i + 1)))
  }

  // ---------------------------------------------------------------------
  // Relaying to the descendants of one target.
  // ---------------------------------------------------------------------

  /** One send per pid of an entry, in entry order. */
  function SendAll(pids: ChildPids, signal: Signal, delivered: Pid -> bool): (r: seq<Send>)
    ensures SentPids(r) == pids
    ensures forall i :: 0 <= i < |r| ==> r[i].signal == signal && r[i].delivered == delivered(r[i].pid)
  {
    var r := seq(|pids|, i requires 0 <= i < |pids| => Send(pids[i], signal, delivered(pids[i])));
    assert SentPids(r) == pids;
    r
  }

  /** The sends for depths `1 ..= n`: the outer loop of the relay. Each entry
      is read with `get(&i).unwrap()`, so every such depth must be a key. */
  function SendsUpTo(m: DepthMap, n: nat, signal: Signal, delivered: Pid -> bool): (r: seq<Send>)
    requires forall i :: 1 <= i <= n ==> i in m
    ensures forall i :: 0 <= i < |r| ==> r[i].signal == signal && r[i].delivered == delivered(r[i].pid)
  {
    if n == 0 then [] else SendsUpTo(m, n - 1, signal, delivered) + SendAll(m[n], signal, delivered)
  }

  /** The relay loop as the source writes it: its bound `len() as u8` keeps
      only the map size modulo 256. */
  function RelayAsWritten(m: DepthMap, signal: Signal, delivered: Pid -> bool): (r: seq<Send>)
    requires forall i :: 1 <= i <= |m| % 256 ==> i in m
    ensures forall i :: 0 <= i < |r| ==> r[i].signal == signal && r[i].delivered == delivered(r[i].pid)
  {
    SendsUpTo(m, |m| % 256, signal, delivered)
  }

  /** Reading fewer depths sends a prefix of what reading more depths sends. */
  lemma {:induction false} SendsUpToPrefix(m: DepthMap, k: nat, n: nat, signal: Signal, delivered: Pid -> bool)
    requires k <= n
    requires forall i :: 1 <= i <= n ==> i in m
    ensures SendsUpTo(m, k, signal, delivered) <= SendsUpTo(m, n, signal, delivered)
    decreases n
  {
    if k < n {
      SendsUpToPrefix(m, k, n - 1, signal, delivered);
    }
  }

  lemma TruncatedBoundBelow(n: nat)
    ensures n % 256 <= n
  {
  }

  /** A map keyed by every depth `1 ..= len` has every depth the as-written
      bound reaches. */
  lemma KeysBelowTruncatedBound(m: DepthMap)
    requires forall i :: 1 <= i <= |m| ==> i in m
    ensures forall i :: 1 <= i <= |m| % 256 ==> i in m
  {
  }

  /** The relay loop with the bound it evidently intends: every depth. */
  function Relay(m: DepthMap, signal: Signal, delivered: Pid -> bool): seq<Send>
    requires forall i :: 1 <= i <= |m| ==> i in m
  {
    SendsUpTo(m, |m|, signal, delivered)
  }

  lemma SentPidsAppend(a: seq<Send>, b: seq<Send>)
    ensures SentPids(a + b) == SentPids(a) + SentPids(b)
  {
  }

  lemma FlattenSingle(x: ChildPids)
    ensures Flatten([x]) == x
  {
    assert [x][1..] == [];
  }

  /** Reading a level map for depths `1 ..= n` gives the first `n` levels. */
  lemma {:induction false} SendsUpToLevels(ls: seq<ChildPids>, n: nat, signal: Signal, delivered: Pid -> bool)
    requires n <= |ls|
    ensures forall i :: 1 <= i <= n ==> i in ToMap(ls)
    ensures SentPids(SendsUpTo(ToMap(ls), n, signal, delivered)) == Flatten(ls[..n])
  {
    if n > 0 {
      SendsUpToLevels(ls, n - 1, signal, delivered);
      var m := ToMap(ls);
      SentPidsAppend(SendsUpTo(m, n - 1, signal, delivered), SendAll(m[n], signal, delivered));
      assert ls[..n] == ls[..n - 1] + [ls[n - 1]];
      FlattenAppend(ls[..n - 1], [ls[n - 1]]);
      FlattenSingle(ls[n - 1]);
    }
  }

  lemma LevelsAreByDepth(t: ProcTree)
    requires Listable(t)
    ensures Levels(t).Ok?
    ensures Levels(t).value == seq(Height(t), i requires 0 <= i < Height(t) => AtDepth(t, i + 1))
  {
    LevelsSpec(t);
  }

  /** The depth map of a resolvable tree has every depth `1 ..= len` as a key,
      so the relay's `unwrap` never fails, and the relay sends the send
      signal once to every descendant, depth by depth in ascending order. */
  lemma RelayCoversTree(t: ProcTree, signal: Signal, delivered: Pid -> bool)
    requires Listable(t)
    ensures forall i :: 1 <= i <= |ResolveTree(t).value| ==> i in ResolveTree(t).value
    ensures SentPids(Relay(ResolveTree(t).value, signal, delivered)) == ByDepth(t)
    ensures multiset(SentPids(Relay(ResolveTree(t).value, signal, delivered))) == multiset(Descendants(t))
  {
    DepthMapCoversDescendants(t);
    LevelsAreByDepth(t);
    var ls := Levels(t).value;
    SendsUpToLevels(ls, |ls|, signal, delivered);
    assert ls[..|ls|] == ls;
  }

  /** Worker body, `propagate_signal`: wait for the listen signal on `pid`;
      once it is seen, resolve the tree of `pid` afresh and send to every
      descendant. A failed `kill` is only reported; the relay goes on. The
      relay reads every depth of the map (see `PropagateSignalAsWritten` for
      the bound as written). */
  function PropagateSignal(pid: Pid, sm: SignalMap, env: WorkerEnv): (r: WorkerOutcome)
    ensures r.sends != [] ==> Listen(sm.listenSignal, env.attach, env.steps) == Returned(Ok(Found))
    ensures Listen(sm.listenSignal, env.attach, env.steps) == Blocked ==> r == WorkerOutcome(Blocked, [])
    ensures forall e :: Listen(sm.listenSignal, env.attach, env.steps) == Returned(Err(e)) ==>
              r == WorkerOutcome(Returned(Err(e)), [])
    ensures r.result == Returned(Ok(())) <==>
              Listen(sm.listenSignal, env.attach, env.steps) == Returned(Ok(Found)) && Listable(Rooted(pid, env.tree))
    ensures Listen(sm.listenSignal, env.attach, env.steps) == Returned(Ok(Found)) && !Listable(Rooted(pid, env.tree)) ==>
              r == WorkerOutcome(Returned(Err(Failures(Rooted(pid, env.tree))[0])), [])
    ensures r.result == Returned(Ok(())) ==>
              SentPids(r.sends) == ByDepth(Rooted(pid, env.tree)) &&
              multiset(SentPids(r.sends)) == multiset(Descendants(Rooted(pid, env.tree)))
    ensures forall i :: 0 <= i < |r.sends| ==>
              r.sends[i].signal == sm.sendSignal && r.sends[i].delivered == env.delivered(r.sends[i].pid)
  {
    match Listen(sm.listenSignal, env.attach, env.steps)
    case Blocked => WorkerOutcome(Blocked, [])
    case Returned(Err(e)) => WorkerOutcome(Returned(Err(e)), [])
    case Returned(Ok(status)) =>
      assert status == Found;
      var t := Rooted(pid, env.tree);
      match ResolveTree(t)
      case Err(e) => WorkerOutcome(Returned(Err(e)), [])
      case Ok(m) =>
        RelayCoversTree(t, sm.sendSignal, env.delivered);
        WorkerOutcome(Returned(Ok(())), Relay(m, sm.sendSignal, env.delivered))
  }

  /** The worker as the source writes it, with the relay bound `len() as u8`:
      on success it has relayed to the first `height mod 256` depths of the
      tree of `pid` only. */
  function PropagateSignalAsWritten(pid: Pid, sm: SignalMap, env: WorkerEnv): (r: WorkerOutcome)
    ensures r.sends != [] ==> Listen(sm.listenSignal, env.attach, env.steps) == Returned(Ok(Found))
    ensures forall i :: 0 <= i < |r.sends| ==>
              r.sends[i].signal == sm.sendSignal && r.sends[i].delivered == env.delivered(r.sends[i].pid)
    ensures r.result == Returned(Ok(())) ==>
              var t := Rooted(pid, env.tree);
              Listable(t) && Levels(t).Ok? && |Levels(t).value| == Height(t) &&
              SentPids(r.sends) == Flatten(Levels(t).value[..Height(t) % 256])
  {
    match Listen(sm.listenSignal, env.attach, env.steps)
    case Blocked => WorkerOutcome(Blocked, [])
    case Returned(Err(e)) => WorkerOutcome(Returned(Err(e)), [])
    case Returned(Ok(status)) =>
      assert status == Found;
      var t := Rooted(pid, env.tree);
      match ResolveTree(t)
      case Err(e) => WorkerOutcome(Returned(Err(e)), [])
      case Ok(m) =>
        RelayAsWrittenIsTruncated(t, sm.sendSignal, env.delivered);
        KeysBelowTruncatedBound(m);
        WorkerOutcome(Returned(Ok(())), RelayAsWritten(m, sm.sendSignal, env.delivered))
  }

  /** The as-written worker succeeds or fails exactly as the intended one
      does, and is the intended one whenever the tree of `pid` is less than
      256 levels deep. */
  lemma AsWrittenWorkerAgrees(pid: Pid, sm: SignalMap, env: WorkerEnv)
    ensures PropagateSignalAsWritten(pid, sm, env).result == PropagateSignal(pid, sm, env).result
    ensures Height(Rooted(pid, env.tree)) < 256 ==>
              PropagateSignalAsWritten(pid, sm, env) == PropagateSignal(pid, sm, env)
  {
    var t := Rooted(pid, env.tree);
    if Listable(t) {
      RelayAsWrittenIsTruncated(t, sm.sendSignal, env.delivered);
    }
  }

  /** Whatever the depth of the tree, the as-written worker's sends are a
      prefix of the intended worker's: it stops early, never sends anything
      else. */
  lemma AsWrittenSendsArePrefix(pid: Pid, sm: SignalMap, env: WorkerEnv)
    ensures PropagateSignalAsWritten(pid, sm, env).sends <= PropagateSignal(pid, sm, env).sends
  {
    var t := Rooted(pid, env.tree);
    if Listen(sm.listenSignal, env.attach, env.steps) == Returned(Ok(Found)) && ResolveTree(t).Ok? {
      var m := ResolveTree(t).value;
      RelayCoversTree(t, sm.sendSignal, env.delivered);
      KeysBelowTruncatedBound(m);
      assert PropagateSignal(pid, sm, env).sends == SendsUpTo(m, |m|, sm.sendSignal, env.delivered);
      assert PropagateSignalAsWritten(pid, sm, env).sends == SendsUpTo(m, |m| % 256, sm.sendSignal, env.delivered);
      var k := |m| % 256;
      TruncatedBoundBelow(|m|);
      SendsUpToPrefix(m, k, |m|, sm.sendSignal, env.delivered);
    }
  }

  /** Sends are best effort: which `kill` calls succeed changes neither the
      worker's result nor who is sent to. */
  lemma RelayIsBestEffort(pid: Pid, sm: SignalMap, env: WorkerEnv, delivered: Pid -> bool)
    ensures PropagateSignal(pid, sm, env).result == PropagateSignal(pid, sm, env.(delivered := delivered)).result
    ensures SentPids(PropagateSignal(pid, sm, env).sends) ==
            SentPids(PropagateSignal(pid, sm, env.(delivered := delivered)).sends)
  {
    var env' := env.(delivered := delivered);
    var r, r' := PropagateSignal(pid, sm, env), PropagateSignal(pid, sm, env');
    if r.result == Returned(Ok(())) {
      assert r'.result == Returned(Ok(()));
    }
  }

  // ---------------------------------------------------------------------
  // The as-written relay bound.
  // ---------------------------------------------------------------------

  /** The as-written relay over a map built from levels reads the first
      `|ls| mod 256` of them. */
  lemma TruncatedRelayOfLevels(ls: seq<ChildPids>, signal: Signal, delivered: Pid -> bool)
    ensures |ToMap(ls)| == |ls|
    ensures forall i :: 1 <= i <= |ls| ==> i in ToMap(ls)
    ensures SentPids(RelayAsWritten(ToMap(ls), signal, delivered)) == Flatten(ls[..|ls| % 256])
    ensures |ls| < 256 ==> RelayAsWritten(ToMap(ls), signal, delivered) == Relay(ToMap(ls), signal, delivered)
  {
    ToMapSize(ls);
    SendsUpToLevels(ls, |ls| % 256, signal, delivered);
    if |ls| < 256 {
      assert |ls| % 256 == |ls|;
    }
  }

  /** As written, the relay reaches exactly the first `height mod 256` depths;
      below height 256 it is the intended relay. */
  lemma RelayAsWrittenIsTruncated(t: ProcTree, signal: Signal, delivered: Pid -> bool)
    requires Listable(t)
    ensures forall i :: 1 <= i <= |ResolveTree(t).value| ==> i in ResolveTree(t).value
    ensures Levels(t).Ok? && |Levels(t).value| == Height(t)
    ensures var m := ResolveTree(t).value;
      |m| % 256 == Height(t) % 256 &&
      SentPids(RelayAsWritten(m, signal, delivered)) == Flatten(Levels(t).value[..Height(t) % 256]) &&
      (Height(t) < 256 ==> RelayAsWritten(m, signal, delivered) == Relay(m, signal, delivered))
  {
    ResolveIsLevels(t);
    TruncatedRelayOfLevels(Levels(t).value, signal, delivered);
  }

  /** A straight line of `n` processes below the root. */
  function Chain(n: nat): (t: ProcTree)
    ensures Listable(t) && Height(t) == n && |Descendants(t)| == n
  {
    if n == 0 then Node(0, [])
    else
      var below := Chain(n - 1);
      assert [below][1..] == [];
      assert Failures(Node(n, [below])) == Failures(below) + FailuresAll([]);
      assert Descendants(Node(n, [below])) == [below.pid] + Descendants(below) + DescendantsAll([]);
      assert Height(Node(n, [below])) == 1 + Max(Height(below), MaxHeight([]));
      Node(n, [below])
  }

  /** A chain 256 processes deep: the as-written relay sends nothing at all,
      although the tree has 256 descendants, while the intended relay reaches
      all of them. */
  lemma RelayAsWrittenMissesDeepChain(signal: Signal, delivered: Pid -> bool)
    ensures forall i :: 1 <= i <= |ResolveTree(Chain(256)).value| ==> i in ResolveTree(Chain(256)).value
    ensures var t := Chain(256);
      Listable(t) && |Descendants(t)| == 256 &&
      RelayAsWritten(ResolveTree(t).value, signal, delivered) == [] &&
      |Relay(ResolveTree(t).value, signal, delivered)| == 256
  {
    var t := Chain(256);
    DepthMapCoversDescendants(t);
    RelayCoversTree(t, signal, delivered);
    var m := ResolveTree(t).value;
    assert |m| % 256 == 0;
    assert |SentPids(Relay(m, signal, delivered))| == |multiset(Descendants(t))|;
  }

  // ---------------------------------------------------------------------
  // Choosing the targets.
  // ---------------------------------------------------------------------

  /** The tree has a non-empty level at `depth` and can be resolved. */
  predicate Reaches(t: ProcTree, depth: nat) {
    Listable(t) && 1 <= depth <= Height(t)
  }

  /** A resolution attempt yields an entry exactly when the tree reaches the
      depth, and the entry is then never empty: the `len() > 0` guard of the
      retry loop never rejects an entry that is present. */
  lemma AttemptSucceeds(t: ProcTree, depth: uint8)
    ensures (ChildPidsAtDepth(t, depth).Ok? && ChildPidsAtDepth(t, depth).value.Some? &&
             |ChildPidsAtDepth(t, depth).value.value| > 0) <==> Reaches(t, depth)
    ensures ChildPidsAtDepth(t, depth) != Ok(Some([]))
  {
  }

  /** No snapshot before index `k` reaches `depth`. */
  predicate NoneReachBefore(snapshots: seq<ProcTree>, depth: nat, k: nat)
    requires k <= |snapshots|
  {
    forall j :: 0 <= j < k ==> !Reaches(snapshots[j], depth)
  }

  /** Snapshot `k` is the first to reach `depth`, and `c` is its entry. */
  predicate FirstReachingEntry(snapshots: seq<ProcTree>, depth: nat, k: nat, c: ChildPids) {
    k < |snapshots| && Reaches(snapshots[k], depth) && c == AtDepth(snapshots[k], depth) &&
    NoneReachBefore(snapshots, depth, k)
  }

  lemma FirstReachingShift(snapshots: seq<ProcTree>, depth: nat, k: nat, c: ChildPids)
    requires |snapshots| > 0 && !Reaches(snapshots[0], depth)
    requires FirstReachingEntry(snapshots[1..], depth, k, c)
    ensures FirstReachingEntry(snapshots, depth, k + 1, c)
  {
    forall j | 0 <= j < k + 1
      ensures !Reaches(snapshots[j], depth)
    {
      if j > 0 {
        assert snapshots[j] == snapshots[1..][j - 1];
      }
    }
  }

  /** A retry over the later snapshots that finds an entry finds the first
      reaching entry overall, when the first snapshot does not reach. */
  lemma RetryStepFound(depth: nat, snapshots: seq<ProcTree>, rest: Run<ChildPids>)
    requires |snapshots| > 0
    requires rest.Returned? ==>
               rest.result.Ok? && exists k :: FirstReachingEntry(snapshots[1..], depth, k, rest.result.value)
    ensures !Reaches(snapshots[0], depth) && rest.Returned? ==>
              exists k :: FirstReachingEntry(snapshots, depth, k, rest.result.value)
  {
    if !Reaches(snapshots[0], depth) && rest.Returned? {
      var k :| FirstReachingEntry(snapshots[1..], depth, k, rest.result.value);
      FirstReachingShift(snapshots, depth, k, rest.result.value);
    }
  }

  /** Some snapshot reaches `depth` iff the first one does or a later one does. */
  lemma RetryStepReaches(depth: nat, snapshots: seq<ProcTree>)
    requires |snapshots| > 0
    ensures (exists k :: 0 <= k < |snapshots| && Reaches(snapshots[k], depth)) <==>
              Reaches(snapshots[0], depth) ||
              exists k :: 0 <= k < |snapshots[1..]| && Reaches(snapshots[1..][k], depth)
  {
    if exists k :: 0 <= k < |snapshots| && Reaches(snapshots[k], depth) {
      var k :| 0 <= k < |snapshots| && Reaches(snapshots[k], depth);
      if k > 0 {
        assert Reaches(snapshots[1..][k - 1], depth);
      }
    }
    if exists k :: 0 <= k < |snapshots[1..]| && Reaches(snapshots[1..][k], depth) {
      var k :| 0 <= k < |snapshots[1..]| && Reaches(snapshots[1..][k], depth);
      assert Reaches(snapshots[k + 1], depth);
    }
  }

  /** The retry loop of `get_target_pids` over successive snapshots. */
  function RetryTargets(depth: uint8, snapshots: seq<ProcTree>): (r: Run<ChildPids>)
    requires depth > 0
    ensures !(r.Returned? && r.result.Err?)
    ensures r.Returned? <==> exists k :: 0 <= k < |snapshots| && Reaches(snapshots[k], depth)
    ensures r.Returned? ==> exists k :: FirstReachingEntry(snapshots, depth, k, r.result.value)
    ensures r.Returned? ==> r.result.value != []
    decreases |snapshots|
  {
    if |snapshots| == 0 then Blocked
    else
      AttemptSucceeds(snapshots[0], depth);
      var rest := RetryTargets(depth, snapshots[1..]);
      RetryStepReaches(depth, snapshots);
      RetryStepFound(depth, snapshots, rest);
      assert Reaches(snapshots[0], depth) ==> FirstReachingEntry(snapshots, depth, 0, AtDepth(snapshots[0], depth));
      match ChildPidsAtDepth(snapshots[0], depth)
      case Ok(Some(children)) =>
        if |children| > 0 then Returned(Ok(children)) else rest
      case _ => rest
  }

  /** Every snapshot read as a tree of `pid`. */
  function Reroot(pid: Pid, snapshots: seq<ProcTree>): (r: seq<ProcTree>)
    ensures |r| == |snapshots|
    ensures forall k :: 0 <= k < |r| ==> r[k] == Rooted(pid, snapshots[k])
  {
    seq(|snapshots|, k requires 0 <= k < |snapshots| => Rooted(pid, snapshots[k]))
  }

  /** `get_target_pids`: `pid` itself at depth 0, otherwise the first
      non-empty entry at `depth` that a resolution attempt on the tree of
      `pid` yields. */
  function GetTargetPids(pid: Pid, depth: uint8, snapshots: seq<ProcTree>): (r: Run<ChildPids>)
    ensures depth == 0 ==> r == Returned(Ok([pid]))
    ensures !(r.Returned? && r.result.Err?)
    ensures r.Returned? ==> r.result.value != []
    ensures depth > 0 ==>
              (r.Returned? <==> exists k :: 0 <= k < |snapshots| && Reaches(Rooted(pid, snapshots[k]), depth))
    ensures depth > 0 && r.Returned? ==>
              exists k :: FirstReachingEntry(Reroot(pid, snapshots), depth, k, r.result.value)
  {
    if depth == 0 then Returned(Ok([pid]))
    else
      var ss := Reroot(pid, snapshots);
      var r := RetryTargets(depth, ss);
      assert r.Returned? ==> exists k :: 0 <= k < |snapshots| && Reaches(Rooted(pid, snapshots[k]), depth) by {
        if r.Returned? {
          var k :| 0 <= k < |ss| && Reaches(ss[k], depth);
          assert Reaches(Rooted(pid, snapshots[k]), depth);
        }
      }
      r
  }

  // ---------------------------------------------------------------------
  // Joining the workers.
  // ---------------------------------------------------------------------

  /** The index of the first result that is not a success, `|results|` if
      every result is one. */
  function FirstNotOk(results: seq<Run<()>>): (k: nat)
    ensures k <= |results|
    ensures forall j :: 0 <= j < k ==> results[j] == Returned(Ok(()))
    ensures k < |results| ==> results[k] != Returned(Ok(()))
  {
    if |results| == 0 || results[0] != Returned(Ok(())) then 0
    else 1 + FirstNotOk(results[1..])
  }

  /** Joining the workers in target order, `handle.join().unwrap()?`: a worker
      that never finishes blocks the join, the first error joined is
      returned, and only when every worker succeeded does the cycle succeed. */
  function JoinAll(results: seq<Run<()>>): (r: Run<()>)
    ensures FirstNotOk(results) == |results| ==> r == Returned(Ok(()))
    ensures FirstNotOk(results) < |results| ==> r == results[FirstNotOk(results)]
  {
    if |results| == 0 then Returned(Ok(()))
    else
      match results[0]
      case Blocked => Blocked
      case Returned(Err(e)) => Returned(Err(e))
      case Returned(Ok(u)) =>
        assert u == ();
        assert results[1..][FirstNotOk(results[1..])..] == results[FirstNotOk(results)..];
        JoinAll(results[1..])
  }

  lemma FirstNotOkUnique(results: seq<Run<()>>, k: nat)
    requires k <= |results|
    requires forall j :: 0 <= j < k ==> results[j] == Returned(Ok(()))
    requires k < |results| ==> results[k] != Returned(Ok(()))
    ensures k == FirstNotOk(results)
  {
  }

  /** The join in both directions: success exactly when every worker
      succeeded; error `e` exactly when the first worker that did not succeed
      failed with `e`; blocked exactly when that worker never finished. */
  lemma JoinAllFirstFailure(results: seq<Run<()>>)
    ensures JoinAll(results) == Returned(Ok(())) <==>
              forall i :: 0 <= i < |results| ==> results[i] == Returned(Ok(()))
    ensures forall e :: JoinAll(results) == Returned(Err(e)) <==>
              exists k :: 0 <= k < |results| && results[k] == Returned(Err(e)) &&
                forall j :: 0 <= j < k ==> results[j] == Returned(Ok(()))
    ensures JoinAll(results) == Blocked <==>
              exists k :: 0 <= k < |results| && results[k] == Blocked &&
                forall j :: 0 <= j < k ==> results[j] == Returned(Ok(()))
  {
    var f := FirstNotOk(results);
    forall k | 0 <= k < |results| && results[k] != Returned(Ok(())) &&
               forall j :: 0 <= j < k ==> results[j] == Returned(Ok(()))
      ensures k == f
    {
      FirstNotOkUnique(results, k);
    }
    if forall i :: 0 <= i < |results| ==> results[i] == Returned(Ok(())) {
      FirstNotOkUnique(results, |results|);
    }
  }

  /** The workers of one cycle, one per target, in target order. */
  function Workers(targets: ChildPids, sm: SignalMap, env: CycleEnv): (r: seq<WorkerOutcome>)
    ensures |r| == |targets|
    ensures forall i :: 0 <= i < |targets| ==> r[i] == PropagateSignal(targets[i], sm, env.worker(i))
  {
    seq(|targets|, i requires 0 <= i < |targets| => PropagateSignal(targets[i], sm, env.worker(i)))
  }

  function Results(ws: seq<WorkerOutcome>): (r: seq<Run<()>>)
    ensures |r| == |ws| && forall i :: 0 <= i < |ws| ==> r[i] == ws[i].result
  {
    seq(|ws|, i requires 0 <= i < |ws| => ws[i].result)
  }

  function Relays(ws: seq<WorkerOutcome>): (r: seq<seq<Send>>)
    ensures |r| == |ws| && forall i :: 0 <= i < |ws| ==> r[i] == ws[i].sends
  {
    seq(|ws|, i requires 0 <= i < |ws| => ws[i].sends)
  }

  /** `propagate_signal_to_all_child_pids`: one relay cycle. */
  function PropagateToAll(pid: Pid, depth: uint8, sm: SignalMap, env: CycleEnv): (r: CycleOutcome)
    ensures GetTargetPids(pid, depth, env.snapshots) == Blocked ==> r == CycleOutcome(Blocked, [])
    ensures r.relays != [] ==> GetTargetPids(pid, depth, env.snapshots).Returned?
    ensures GetTargetPids(pid, depth, env.snapshots).Returned? ==>
              |r.relays| == |GetTargetPids(pid, depth, env.snapshots).result.value|
    ensures depth == 0 ==> |r.relays| == 1 && r.relays[0] == PropagateSignal(pid, sm, env.worker(0)).sends
    ensures GetTargetPids(pid, depth, env.snapshots).Returned? ==>
              var targets := GetTargetPids(pid, depth, env.snapshots).result.value;
              forall i :: 0 <= i < |targets| ==> r.relays[i] == PropagateSignal(targets[i], sm, env.worker(i)).sends
    ensures r.result == Returned(Ok(())) ==>
              GetTargetPids(pid, depth, env.snapshots).Returned? &&
              var targets := GetTargetPids(pid, depth, env.snapshots).result.value;
              forall i :: 0 <= i < |r.relays| ==>
                Listen(sm.listenSignal, env.worker(i).attach, env.worker(i).steps) == Returned(Ok(Found)) &&
                multiset(SentPids(r.relays[i])) == multiset(Descendants(Rooted(targets[i], env.worker(i).tree)))
  {
    match GetTargetPids(pid, depth, env.snapshots)
    case Blocked => CycleOutcome(Blocked, [])
    case Returned(Err(e)) => CycleOutcome(Returned(Err(e)), [])
    case Returned(Ok(targets)) =>
      var ws := Workers(targets, sm, env);
      CycleOutcome(JoinAll(Results(ws)), Relays(ws))
  }

  /** The cycle result is the join of the workers' results: success exactly
      when every worker succeeded, otherwise the first failing worker's
      error in target order (or blocked, if an earlier worker never ends). */
  lemma CycleResultIsJoin(pid: Pid, depth: uint8, sm: SignalMap, env: CycleEnv)
    requires GetTargetPids(pid, depth, env.snapshots).Returned?
    ensures var ws := Workers(GetTargetPids(pid, depth, env.snapshots).result.value, sm, env);
      var r := PropagateToAll(pid, depth, sm, env).result;
      (r == Returned(Ok(())) <==> forall i :: 0 <= i < |ws| ==> ws[i].result == Returned(Ok(()))) &&
      (forall e :: r == Returned(Err(e)) <==>
         exists k :: 0 <= k < |ws| && ws[k].result == Returned(Err(e)) &&
           forall j :: 0 <= j < k ==> ws[j].result == Returned(Ok(())))
  {
    var ws := Workers(GetTargetPids(pid, depth, env.snapshots).result.value, sm, env);
    JoinOfWorkers(PropagateToAll(pid, depth, sm, env).result, ws);
  }

  /** Across a whole cycle, finished or not, a relay sends nothing unless its
      worker's listen found the signal. */
  lemma CycleSendsOnlyAfterFound(pid: Pid, depth: uint8, sm: SignalMap, env: CycleEnv)
    ensures var r := PropagateToAll(pid, depth, sm, env);
      forall i :: 0 <= i < |r.relays| && r.relays[i] != [] ==>
        Listen(sm.listenSignal, env.worker(i).attach, env.worker(i).steps) == Returned(Ok(Found))
  {
    var r := PropagateToAll(pid, depth, sm, env);
    var targets := GetTargetPids(pid, depth, env.snapshots);
    if targets.Returned? {
      forall i | 0 <= i < |r.relays| && r.relays[i] != []
        ensures Listen(sm.listenSignal, env.worker(i).attach, env.worker(i).steps) == Returned(Ok(Found))
      {
        assert r.relays[i] == PropagateSignal(targets.result.value[i], sm, env.worker(i)).sends;
      }
    }
  }

  /** The join characterisation read on the workers themselves. */
  lemma JoinOfWorkers(r: Run<()>, ws: seq<WorkerOutcome>)
    requires r == JoinAll(Results(ws))
    ensures r == Returned(Ok(())) <==> forall i :: 0 <= i < |ws| ==> ws[i].result == Returned(Ok(()))
    ensures forall e :: r == Returned(Err(e)) <==>
              exists k :: 0 <= k < |ws| && ws[k].result == Returned(Err(e)) &&
                forall j :: 0 <= j < k ==> ws[j].result == Returned(Ok(()))
  {
    JoinAllFirstFailure(Results(ws));
  }
}

=== FILE: types.dfy ===
/** Shared vocabulary of the signal relay: process ids, signals, the single
    error type every fallible step reports, and the result shapes. */
module Types {

  /** A process id; the source mixes u32 and i32, the model uses naturals. */
  type Pid = nat

  /** A signal, identified by its number. */
  type Signal = nat

  /** An unsigned 8-bit value, the width of the depth option. */
  type uint8 = x: int | 0 <= x < 0x100

  /** Pids recorded at one depth of a process tree, in discovery order. */
  type ChildPids = seq<Pid>

  /** Map from depth (1 = direct children) to the pids found at that depth. */
  type DepthMap = map<nat, ChildPids>

  /** The errors the relay can report: a failing operating-system call
      (child listing, tracing, waiting, spawning) or an empty command. */
  datatype Error = OsError(code: int) | EmptyCommand

  datatype Option<+T> = None | Some(value: T)

  datatype Result<+T> = Ok(value: T) | Err(error: Error)

  /** What a listener reports when it returns. */
  datatype ListenStatus = Found | NotFound

  /** The observable fate of a blocking computation run against a finite
      trace of operating-system answers: it either returned a result, or it
      was still waiting when the trace ran out. */
  datatype Run<+T> = Returned(result: Result<T>) | Blocked
}
